=== FILE: README.md ===
# codecks-dnd coordination core in Dafny

This project models the pure coordination logic of the codecks-dnd React
drag-and-drop library and proves properties of it. The library's
`src/index.jsx` is the current engine. Its `src/index.js` is the earlier
engine. The DOM and React only supply inputs (rectangles, cursor events,
ancestor lists, scroll flags) and receive callbacks, so here they are
parameters and results of pure functions.

The modules follow the engine's parts:

- `Geometry`: points, boxes and published rectangles; `isWithin`,
  `addPos`/`subPos`, `getRelPosition`, the element centre.
- `Clipping`: `intersectWithParents` and the rectangle `update` of
  `getRectListener`. It has two versions, as written and corrected (see
  Findings).
- `ZoneRegistry`: the sorted drop-zone list. It holds the
  `getIndexViaBinarySearch` insertion (the one method with a loop) and `splice(indexOf(z), 1)` removal. The stacking-order
  comparator is an abstract function.
- `Resolver`: `update` of the drop-zone manager, together with each zone's
  `setOver`, `onDragOver` and `onDrop` closures.
- `ScrollRegistry`: the reference-counted `registerScrollContainer`. It
  keeps the count map, its key insertion order and the reversed
  `scrollNodes` list.
- `Gesture`: the `Draggable` state machine `idle → pending → started → idle`
  with its 5 px "sloppy click" threshold.
- `Offsets`: the element-centre drag info, built by `onItemDragStart` and
  changed by mouse moves.
- `Autoscroll`: hot-zone sizing, the intensity scale, innermost-first
  selection, `setActiveScrollNode`, the scroll store's `setNode`, and the
  drag-store listener that re-selects with the raw cursor.
- `Session`: the drag store's `set`/`setDragInfo`, the `DragElement`
  handlers for mouse move, mouse up and key down, and rectangle-change
  re-resolves.
- `Atom`: `createAtom`.
- `Legacy`: the earlier engine. It covers the drop-function list,
  dispatch via `some`, the offset arithmetic, the state machine and the
  mouse-up handler. That handler passes `{item: null, setDragInfo: null}`
  to the store's own `set` action (src/index.js:42 selects it). The action
  only reads `item` and `dragInfo`, so the stray key is ignored and the drag
  info is cleared (to `undefined`) all the same. `Legacy.Dispatch` is stated
  for any answers. Each drop function a zone registers (src/index.js:348-355)
  returns `undefined`, though, so `some` stops after the first function in the
  list.
- `Seqs` and `Options`: generic helpers.

Coordinates are mathematical reals. JavaScript's `Math.ceil` is written with
`Floor`. The NaN that a zero-height scroll band produces (0/0) is an explicit
`Intensity.NaN` value.

## Model

| member | source | states |
|---|---|---|
| Geometry.AddPos | src/index.jsx:169 | the sum is commutative, and subtracting either summand from it gives back the other |
| Geometry.SubPos | src/index.jsx:170 | the difference is the origin exactly when the two points are equal, and adding it back to the second point gives the first |
| Geometry.IsWithin | src/index.jsx:171-175 | a hit lies between the left and right edges and between the top and bottom edges, edges included; only a rectangle of non-negative size has hits |
| Geometry.SubAddCancel | src/index.jsx:169-170 | subtracting an offset undoes adding it, so the raw cursor is recovered from an offset-adjusted position |
| Geometry.WithinClosed | src/index.jsx:171-175 | containment is closed: all four corners of a rectangle of non-negative size are hits; a rectangle of negative width or height contains no point |
| Geometry.GetRelPosition | src/index.jsx:796-799 | adding back the visible top-left corner minus the invisible offsets gives the client position: the result is relative to the node's full content origin |
| Geometry.Centre | src/index.jsx:543-544 | the centre is equidistant from opposite edges and lies inside a box of non-negative size |
| Clipping.StepAsWritten | src/index.jsx:734-741 | one parent as written: the window changes nothing; an element shrinks top, bottom and right but leaves `left`, while `invisibleLeft` still grows by the overhang on the left |
| Clipping.Step | src/index.jsx:734-741 | one parent, corrected: the window changes nothing; an element clips the box to exactly its intersection with the element's box, and each invisible amount grows as far as its edge moves |
| Clipping.FoldAsWritten | src/index.jsx:731-742 | the loop as written: `left` never changes, `invisibleTop − top` is invariant, edges only shrink, `invisibleLeft` only grows |
| Clipping.IntersectAsWritten | src/index.jsx:727-744 | as written: `left` is returned unchanged, `invisibleTop` is `top` minus the child's top and is ≥ 0, `bottom` and `right` never increase |
| Clipping.Fold | src/index.jsx:731-742 | corrected loop: each invisible amount moves with its edge; the clipped box contains exactly the points inside the box and inside every element parent; window parents are skipped |
| Clipping.IntersectWithParents | src/index.jsx:727-744 | corrected: `invisibleTop`/`invisibleLeft` equal how far top/left moved and are ≥ 0; the result is exactly the intersection with all element parents |
| Clipping.Measure | src/index.jsx:749-770 | the window is `(0, 0, clientWidth, clientHeight)`; a node's published rect hits exactly the points visible through all scroll parents, and its local position is the position relative to the node's own unclipped corner |
| Clipping.MeasureAsWritten | src/index.jsx:754-769 | as written, a node's rect keeps its unclipped left edge |
| ClippingFinding.LeftClippedAsWrittenRect | src/index.jsx:727-744 | the as-written rect of a 100×100 child whose element parent starts at x = 10 is `(0, 0, 100, 100)` with `invisibleLeft` 10 |
| ClippingFinding.LeftClippedRect | src/index.jsx:727-744 | the corrected rect of the same child is `(0, 10, 90, 100)` with `invisibleLeft` 10 |
| ClippingFinding.LeftClipAsWrittenIsWrong | src/index.jsx:739 | as written, a point left of the parent is a hit and its local x is off by the clipped amount; corrected, neither happens |
| ZoneRegistry.IndexViaBinarySearch | src/index.jsx:47-62 | the index is in `[0, |list|]`; under a stacking order on a sorted list, every earlier element sorts ≤ the new one and every later element ≥ it |
| ZoneRegistry.AddDropZone | src/index.jsx:68-70 | the zone is spliced in once at some index, the others are kept as a multiset, and a sorted list stays sorted |
| ZoneRegistry.InsertKeepsSorted | src/index.jsx:68-70 | splicing at an index that splits the list into "≤ new" and "≥ new" keeps it sorted |
| ZoneRegistry.RemoveDropZone | src/index.jsx:71-74 | a present zone's first occurrence is removed and the rest keep their order; an absent zone makes `splice(-1, 1)` drop the last zone |
| ZoneRegistry.RemoveUndoesAdd | src/index.jsx:68-74 | unregistering a freshly spliced zone gives back the list before it was added |
| ZoneRegistry.RemoveKeepsSorted | src/index.jsx:71-74 | removal keeps a sorted list sorted |
| ZoneRegistry.AddKeepsDistinct | src/index.jsx:68-70 | adding a zone not yet listed keeps the list free of duplicates |
| Resolver.HitIndex | src/index.jsx:77-81 | the first zone, in list order, whose non-null rect contains the point; all earlier zones miss |
| Resolver.SetOver | src/index.jsx:863-871 | only the over flag changes; a leave fires exactly when the zone was over, becomes not over and has an `onDragOver` |
| Resolver.Visit | src/index.jsx:78-94 | one loop iteration claims the point exactly when nothing was found yet and the zone is hit, firing drop or drag-over and then a possible leave |
| Resolver.UpdateFrom | src/index.jsx:78-94 | the scan keeps the number of zones and changes nothing in a zone but its over flag; the per-zone outcome is stated by `Resolver.UpdateFromAt` |
| Resolver.UpdateFromAt | src/index.jsx:76-95 | scanning from a given `found` flag, zone i ends over exactly when it is the winner of a non-drop pass, and fires exactly its expected callbacks |
| Resolver.Update | src/index.jsx:76-95 | a null position is "already found"; otherwise the first hit zone gets over/drop and every other zone is set not over |
| Resolver.UpdateLeavesAtMostOneOver | src/index.jsx:76-95 | after any pass at most one zone is over, and it is hit by the point with no earlier zone hit |
| Resolver.OnlyWinnerClaims | src/index.jsx:91-93 | a zone that does not win fires at most a leave, and only if it was over, and ends not over |
| Resolver.DropLeavesNothingOver | src/index.jsx:82-84 | after a drop pass no zone is over; the winner with an `onDrop` first receives the drop at its local position |
| Resolver.OccludedZoneLeavesOnce | src/index.jsx:76-95 | a zone that was over but is now covered by an earlier zone fires exactly one leave |
| Resolver.ClearAfterDropIsSilent | src/index.jsx:416-421 | the `set(null)` pass after a drop pass fires no callback at all |
| ScrollRegistry.Empty | src/index.jsx:105-106 | the empty registry is valid and exposes no scroll nodes |
| ScrollRegistry.RegisterOne | src/index.jsx:112-118 | one node: its count goes up by one and no other count changes; it becomes a key; the list is marked modified exactly when it had no positive count |
| ScrollRegistry.RegisterOneFacts | src/index.jsx:112-118 | one node: a positive count is incremented in place; otherwise the node gets count 1, is appended if new, and the list is marked modified |
| ScrollRegistry.RegisterAll | src/index.jsx:110-119 | the `forEach` keeps the map well formed, only appends keys, appends only nodes that were not keys, and marks modified exactly when keys were appended |
| ScrollRegistry.RegisterAllCount | src/index.jsx:111-119 | each node's count goes up by the number of times it is listed |
| ScrollRegistry.UnregisterOne | src/index.jsx:134-140 | one registered node: its count goes down by one and no other count changes; the key is dropped and the list marked modified exactly when the count was 1 |
| ScrollRegistry.UnregisterOneFacts | src/index.jsx:134-140 | one node: count 1 deletes the key and marks modified, any other count is decremented; keys keep their relative order |
| ScrollRegistry.DeleteFacts | src/index.jsx:135-137 | deleting a key with count 1 removes just that key from the order |
| ScrollRegistry.UnregisterTailAllowed | src/index.jsx:133-141 | after the first listed node is decremented, the remaining nodes are still each registered at least as often as listed |
| ScrollRegistry.UnregisterAll | src/index.jsx:131-141 | the `forEach` keeps the map well formed; the surviving keys keep their order; modified exactly when keys were deleted |
| ScrollRegistry.UnregisterAllCount | src/index.jsx:133-141 | each node's count goes down by the number of times it is listed |
| ScrollRegistry.Publish | src/index.jsx:120-127 | the map and key order are stored; when the list was modified `scrollNodes` is the key order reversed, otherwise the previous `scrollNodes` stays |
| ScrollRegistry.PublishFacts | src/index.jsx:120-127 | recomputing `scrollNodes` only when a key was added or deleted keeps it equal to the reversed key order, listing exactly the nodes with a positive count |
| ScrollRegistry.Register | src/index.jsx:107-128 | counts go up by multiplicity, `scrollNodes` stays the reversed key order and lists exactly the nodes with a positive count, and new keys are appended after the old ones |
| ScrollRegistry.Unregister | src/index.jsx:129-150 | counts go down by multiplicity, keys keep their order, and `scrollNodes` stays the reversed key order of exactly the nodes with a positive count |
| ScrollRegistry.SameCountsSameMap | src/index.jsx:106 | with positive counts, the counts per node determine the map |
| ScrollRegistry.KeepOldKeys | src/index.jsx:120-123 | filtering a key list grown by new keys down to the old keys gives back the old key order |
| ScrollRegistry.UnregisterUndoesRegister | src/index.jsx:107-150 | register followed by its unregister restores the counts, the key order and `scrollNodes` exactly |
| Gesture.ThresholdExceeded | src/index.jsx:164-167 | the threshold is exceeded exactly when the cursor has left the open square of half-width 5 around the start |
| Gesture.ThresholdSymmetric | src/index.jsx:164-167 | the threshold test is symmetric in the two points, and an unmoved cursor never exceeds it |
| Gesture.Settle | src/index.jsx:656-659 | rendering a disabled draggable cancels a pending gesture; an enabled one, or one in any other state, is left as it is |
| Gesture.Handle | src/index.jsx:618-699 | `preventDefault` is called only on a real transition to pending or started; a started draggable has no handlers; only a pending gesture can start |
| Gesture.IdleToPending | src/index.jsx:622-629 | idle becomes pending exactly on an enabled, not-prevented, primary-button, modifier-free mouse-down, at its position |
| Gesture.PendingToStarted | src/index.jsx:661-670 | pending becomes started exactly on an enabled primary-button move that exceeds the threshold, keeping `startPos`, with `isTouch` false |
| Gesture.PendingCancels | src/index.jsx:653-674 | in pending, a mouse-up, a mouse-down or being disabled returns to idle |
| Gesture.Launch | src/index.jsx:606-616 | a started gesture on a mounted node is handed to `onItemDragStart` with its data and the draggable returns to idle; an unmounted node (null `nodeRef.current`) or a gesture that is not started hands over nothing and keeps the state |
| Gesture.UnmountedStaysStarted | src/index.jsx:606-616 | a started draggable whose node is not mounted stays started, with the same data, whatever events follow, and never hands over |
| Gesture.Step | src/index.jsx:618-699 | one event after the render-time cancel: a started draggable is unchanged, a disabled one is idle or unchanged, and a new start comes only from pending on a move past the threshold, keeping the start position |
| Gesture.Run | src/index.jsx:696-698 | a sequence of events leaves a started draggable as it is: it has no handlers |
| Gesture.StartedOnlyPastThreshold | src/index.jsx:618-699 | any run of events that ends started went through a primary-button move, at the current position, past the threshold from the start |
| Gesture.DisabledNeverStarts | src/index.jsx:620-659 | a disabled draggable never starts a drag and is idle after any event |
| Offsets.BeginDrag | src/index.jsx:541-554 | after drag start `currentPos` is the element centre, `currentPos − startPos` is the raw displacement, and subtracting the offset gives back both raw points |
| Offsets.Move | src/index.jsx:395-403 | no drag info stays none; otherwise only `currentPos` changes, to a value from which subtracting the offset gives the raw cursor |
| Offsets.Moves | src/index.jsx:395-403 | moves never create or destroy the drag info |
| Offsets.MovesKeepFrame | src/index.jsx:395-403 | after any number of moves the offset, start, dimensions and touch flag are unchanged and `currentPos` is the last raw cursor plus the offset |
| Offsets.TranslationFollowsCursor | src/index.jsx:456-461 | the ghost element's translation `currentPos − startPos` equals the cursor's displacement since the gesture began |
| Offsets.MoveExample | src/index.jsx:400 | with offset (10, 5) a move to (150, 120) gives `currentPos` (160, 125) |
| Autoscroll.HotZoneHeight | src/index.jsx:262-265 | the band is at most 100, at most half a non-negative height, at least 15 from height 30, a fifth of the height between 75 and 500, and 100 from 500 |
| Autoscroll.MakeScrollNode | src/index.jsx:260-282 | the top band keeps the top edge, the bottom band the bottom edge, both have the hot-zone height and lie inside a container of non-negative height |
| Autoscroll.Ceil | src/index.jsx:306 | `Math.ceil`: the least integer not below x |
| Autoscroll.TopIntensity | src/index.jsx:305-306 | in the top band the intensity is in [−6, −1], −6 at the top edge, and NaN exactly for a zero-height band |
| Autoscroll.BottomIntensity | src/index.jsx:311-312 | in the bottom band the intensity is in [1, 6], 6 at the bottom edge, and NaN exactly for a zero-height band |
| Autoscroll.IntensityGrowsTowardsEdge | src/index.jsx:305-312 | the magnitude never decreases as the point moves towards the band's outer edge |
| Autoscroll.Activation | src/index.jsx:303-315 | a qualifying node is activated with its own id, with magnitude 1–6, negative exactly for the top band, unless the band has zero height, where the intensity is `NaN` |
| Autoscroll.Select | src/index.jsx:300-320 | none exactly when no node qualifies; otherwise the first qualifying node in scan order, with its activation |
| Autoscroll.TailAnswerFits | src/index.jsx:302-318 | when the head does not qualify, the tail's answer is the answer for the whole list |
| Autoscroll.TopBandShadowsBottom | src/index.jsx:303-310 | a node whose top band holds the cursor but cannot scroll up is skipped without consulting its bottom band |
| Autoscroll.SetActive | src/index.jsx:213-221 | the previous object is kept exactly on a re-selection of the same id with the same non-NaN intensity; the stored value always equals `next` |
| Autoscroll.ReselectKeeps | src/index.jsx:216-217 | re-selecting the same node and intensity keeps the previous object, except that a NaN intensity always replaces it |
| Autoscroll.EmptyStore | src/index.jsx:210-212 | the empty scroll store is valid with no nodes and no active node |
| Autoscroll.SetNode | src/index.jsx:222-239 | an object replaces the entry, a new id going last; null deletes it and clears the active node exactly when it had that id; `reverseNodes` is the values reversed |
| Autoscroll.UpdateScrollFlags | src/index.jsx:289 | a scroll update changes only the two flags of that entry |
| Autoscroll.SetThenRemove | src/index.jsx:222-239 | adding a new container's entry and then removing it gives back the store |
| Autoscroll.ActiveIsRegistered | src/index.jsx:300-320 | the selected container is one of the registered ones |
| Autoscroll.ReverseNodesRegistered | src/index.jsx:202-206 | every entry of `reverseNodes` is a registered container |
| Autoscroll.UpdateActive | src/index.jsx:357-375 | with drag info, the active node is re-selected at `currentPos − mouseOffset`; without, nothing changes; nothing but the active node changes |
| Autoscroll.SelectsWithRawCursor | src/index.jsx:362-363 | after a move, autoscroll selects with exactly the raw mouse position |
| Session.PassMatches | src/index.jsx:76-95 | a non-drop pass leaves exactly the claiming zone over and changes nothing but the over flags |
| Session.Set | src/index.jsx:152-155 | the store holds the new item and drag info, the zones' over flags match the new position, at most one zone is over, no drop fires, and each zone fires exactly its expected callbacks: a drag-over for the first zone hit, a leave for a zone that stops being over |
| Session.StartDrag | src/index.jsx:541-554 | starting a drag stores the item and a drag info whose position is the element centre, resolves the zones there, and each zone fires its expected callbacks for that position |
| Session.MouseMove | src/index.jsx:395-403 | the drag info follows the cursor, the zones' over flags match the new projected position, and each zone fires its expected callbacks there: a drag-over for the winner on every move, a leave for a zone that stops being over |
| Session.MouseUp | src/index.jsx:416-421 | with drag info, the callbacks are those of one drop pass, and afterwards the store is empty and no zone is over; without drag info nothing happens |
| Session.KeyDown | src/index.jsx:425-427 | the store is emptied, no zone stays over, and each zone fires exactly a leave if it was over and has a callback |
| Session.RectChanged | src/index.jsx:879-882 | only that zone's rect changes; a null written over a null notifies no one and changes nothing; otherwise, while dragging, the zones are re-resolved at the current position with their expected callbacks, so over flags keep matching the position |
| Session.EventsKeepOneOver | src/index.jsx:395-427 | from a consistent state, every event leaves at most one zone over |
| Session.ConsistentOneOver | src/index.jsx:76-95 | over flags that match a position leave at most one zone over |
| Session.KeyDownNeverDrops | src/index.jsx:425-427 | cancelling with a key never fires a drop |
| Session.MouseUpDropsOnWinner | src/index.jsx:416-421 | on mouse-up the drop goes to the first zone containing the current position, at its local position, and no other zone gets a drop |
| Atom.Create | src/index.jsx:801-803 | a new atom holds the initial value and has no subscriber |
| Atom.Get | src/index.jsx:805 | `get` returns the stored value: setting it back changes nothing and notifies no one |
| Atom.Set | src/index.jsx:806-811 | the value is stored, and the subscriber is called, with the new value, exactly when there is one and the value changed |
| Atom.Subscribe | src/index.jsx:813-814 | subscribing installs a subscriber and keeps the value |
| Atom.Unsubscribe | src/index.jsx:815-817 | the returned function removes the subscriber and keeps the value |
| Atom.SetIdempotent | src/index.jsx:806-811 | setting the same value (for an object, the same reference) again notifies no one and changes nothing |
| Atom.UnsubscribedIsSilent | src/index.jsx:809 | without a subscriber no set notifies anyone |
| Atom.SetAllKeepsSubscription | src/index.jsx:806-811 | a sequence of sets keeps the subscription and ends holding the last value |
| Legacy.AddDropFn | src/index.js:18-19 | the new function goes first, before the old list |
| Legacy.RemoveDropFn | src/index.js:20 | the unregister removes that function and keeps every other one |
| Legacy.UnregisterRemovesOnlyItself | src/index.js:18-20 | unregistering after later registrations removes only that function; the others keep their order |
| Legacy.Dispatch | src/index.js:59 | functions are called in list order, stopping at the first whose answer is not `false`; all are called when every answer is `false` |
| Legacy.FirstDropFnHandles | src/index.js:348-355 | the drop functions the earlier engine registers return `undefined`, so a mouse-up calls only the first function in the list, the one registered last |
| Legacy.HandleItemDragStart | src/index.js:118-133 | the offset is centre − current position, `currentPos` becomes the centre, and `startPos` is shifted by the same offset |
| Legacy.DragStartAgrees | src/index.js:118-133 | the earlier and the current engine start a drag with the same offset, positions and dimensions |
| Legacy.LegacySet | src/index.js:22 | the `set` action stores exactly `item` and `dragInfo` from its argument and leaves the drop functions alone |
| Legacy.LegacyMove | src/index.js:46-56 | a move succeeds exactly when there is drag info (otherwise reading `prev.startPos` throws); it then changes only `currentPos`, to the raw cursor plus the offset |
| Legacy.MouseUp | src/index.js:57-61 | the drop functions are dispatched until one handles the item; the `set` action then ignores the stray `setDragInfo` key and clears both `item` and `dragInfo` |
| Legacy.IsOver | src/index.js:293-295 | a zone is over only with a measured rectangle and a drag info, and then the zone-local position of the cursor lies within the zone's width and height |
| Legacy.MoveThenIsOver | src/index.js:46-56 | after a move to a raw cursor, a zone is over exactly when the cursor shifted by the grab offset lies in its rectangle |
| Legacy.RelPosition | src/index.js:283-286 | `pos − (left, top)`; it equals the current engine's local position exactly when nothing is clipped |
| Legacy.MouseUpEndsSession | src/index.js:57-61 | after a mouse-up no zone is over, the drop functions stay registered, and the next drag follows the cursor |
| Legacy.LegacyHandle | src/index.js:181-212 | `preventDefault` only on a real transition; a started state is only produced without the touch flag |
| Legacy.LegacyHandleAgrees | src/index.js:181-212 | the earlier state machine is the current one with `disabled` false: same guard, threshold and cancels |
| Seqs.Reverse | src/index.jsx:202-206 | reversal keeps the length and puts element i at position n−1−i |
| Seqs.IndexOf | src/index.jsx:72 | `indexOf`: the first position of x, or −1 exactly when x is absent |
| Seqs.Without | src/index.js:20 | `filter(f => f !== x)`: x is gone, every other element keeps its multiplicity |

## Left out

- React and the DOM: `Portal`, `useStyle`, context providers, placeholders, `mergeRefs`, event listener plumbing, `ResizeObserver`, `getBoundingClientRect` and `getComputedStyle` in `getScrollParents`. Their outputs are inputs here: boxes, ancestor lists, scroll flags and cursor events.
- `getScrollInfo` (src/index.jsx:243-255): the `canScrollUp`/`canScrollDown` flags are inputs to `Autoscroll.MakeScrollNode`.
- The `stacking-order` library's `compare`: it is an abstract comparator. Sortedness results hold whenever it is a stacking order.
- The `requestAnimationFrame` momentum loop (src/index.jsx:322-355): it is frame-scheduled floating-point numerics.
- zustand subscription mechanics: store writes are pure functions, and "subscribers re-run" is the `keptPrevious` flag of `Autoscroll.SetActive`.
- Touch handling is commented out in the source, so `isTouch` is always false in started gestures. The touch-move and touch-end listeners of `DragElement` are not modelled.
- The item type and layer-key filters of `useDragItem`, `cancelDragOnUnmount`, and the evaluation of a function-valued `itemData`.
- The earlier engine's zone enter/leave effect (src/index.js:312-330) and its rect listener (including its `"resive"` listener name). Only its `isOver` selector is modelled, as `Legacy.IsOver`.
- The viewport rectangle of `Clipping.Measure` carries invisible offsets of 0. The window rectangle of src/index.jsx:752-753 has no such fields, so a later read of them would see `undefined`; the model takes 0, which is what a zone-local position from the window needs.
- Atom.Set: the atom compares values with `==`, which stands for JavaScript's `!==`. For objects that is reference identity, so the model is silent on a structurally equal value where the source notifies a fresh object. The rectangle cell is the atom's only use (src/index.jsx:825-839), and each measurement builds a new object (src/index.jsx:753, 759-768). `Session.RectChanged` therefore takes the cell's notify condition to be "not null over null", and `Atom.SetIdempotent` is about setting the same reference again.
- Floating point: coordinates are exact reals, so rounding effects of IEEE arithmetic are not modelled.
- `onDragOver` fires for the winning zone on every non-drop pass, whether or not the position changed (src/index.jsx:85-87); the model does the same and keeps no previous position.
- The hot-zone height is `min(100, max(0.2h, min(0.5h, 15)))` (src/index.jsx:262-265), as `Autoscroll.HotZoneHeight` computes it.
- ScrollRegistry.Unregister: requires each listed node to be registered at least as often as listed. The unregister closure only comes from its own registration, and a second call of the same closure (which would store `NaN` counts) is not modelled.
- Autoscroll.UpdateScrollFlags: requires the id to be registered. For an id that was already deleted, the source would store an object holding only the two flags.
- Autoscroll.Select: the active node records the container's id and intensity but not its DOM node reference.
- Session.MouseUp: the touch-end and touch-cancel paths, which share this handler, and `preventDefault` on the event are not modelled.

## Findings

| source | as written | input that shows it | evidently intended | confidence | as-written member | corrected member |
|---|---|---|---|---|---|---|
| src/index.jsx:739 | the loop assigns `top = nextTop` a second time where `left = nextLeft` belongs, so the left edge is never clipped while `invisibleLeft` still grows | a 100×100 child at the origin inside an element scroll parent whose left edge is at x = 10: the point (5, 50) counts as inside the zone, and (20, 50) gets local x 30 instead of 20 | `left = nextLeft` | not executed; high (the adjacent lines are the same pattern for `top`) | Clipping.IntersectAsWritten, ClippingFinding.LeftClipAsWrittenIsWrong | Clipping.IntersectWithParents, Clipping.Measure |

=== FILE: atom.dfy ===
/** `createAtom` (src/index.jsx:801-820): a value cell with at most one
    subscriber, used to push rectangle updates without a re-render. */
module Atom {
  import opened Options

  datatype Atom<V> = Atom(value: V, subscribed: bool)

  /** The outcome of `set`: the new cell and the value handed to the
      subscriber, if it was called. */
  datatype SetOutcome<V> = SetOutcome(atom: Atom<V>, notified: Option<V>)

  function Create<V>(initial: V): (a: Atom<V>)
    ensures a.value == initial && !a.subscribed
  {
    Atom(initial, false)
  }

  /** `get`: the stored value. Writing back the value just read is a no-op
      that notifies no one. */
  function Get<V(==)>(a: Atom<V>): (v: V)
    ensures Set(a, v).atom == a && Set(a, v).notified.None?
  {
    a.value
  }

  /** Stores `v`; the subscriber hears of it only when the value changed. */
  function Set<V(==)>(a: Atom<V>, v: V): (r: SetOutcome<V>)
    ensures r.atom.value == v
    ensures r.atom.subscribed == a.subscribed
    ensures r.notified.Some? <==> a.subscribed && v != a.value
    ensures r.notified.Some? ==> r.notified.value == v
  {
    if v != a.value then
      SetOutcome(Atom(v, a.subscribed), if a.subscribed then Some(v) else None)
    else
      SetOutcome(a, None)
  }

  /** `subscribe` replaces any earlier subscriber; its returned function
      removes it. */
  function Subscribe<V>(a: Atom<V>): (r: Atom<V>)
    ensures r.subscribed && r.value == a.value
  {
    a.(subscribed := true)
  }

  function Unsubscribe<V>(a: Atom<V>): (r: Atom<V>)
    ensures !r.subscribed && r.value == a.value
  {
    a.(subscribed := false)
  }

  /** Setting the same value twice notifies at most once, and the second
      set changes nothing. */
  lemma SetIdempotent<V>(a: Atom<V>, v: V)
    ensures Set(Set(a, v).atom, v).notified == None
    ensures Set(Set(a, v).atom, v).atom == Set(a, v).atom
  {
  }

  /** An unsubscribed cell stores values silently. */
  lemma UnsubscribedIsSilent<V>(a: Atom<V>, vs: seq<V>)
    requires !a.subscribed
    ensures forall i :: 0 <= i < |vs| ==> Set(SetAll(a, vs[..i]), vs[i]).notified == None
  {
    forall i | 0 <= i < |vs| ensures Set(SetAll(a, vs[..i]), vs[i]).notified == None {
      SetAllKeepsSubscription(a, vs[..i]);
    }
  }

  function SetAll<V(==)>(a: Atom<V>, vs: seq<V>): Atom<V>
    decreases |vs|
  {
    if vs == [] then a else SetAll(Set(a, vs[0]).atom, vs[1..])
  }

  lemma {:induction false} SetAllKeepsSubscription<V>(a: Atom<V>, vs: seq<V>)
    ensures SetAll(a, vs).subscribed == a.subscribed
    ensures vs != [] ==> Get(SetAll(a, vs)) == vs[|vs| - 1]
    decreases |vs|
  {
    if vs != [] {
      SetAllKeepsSubscription(Set(a, vs[0]).atom, vs[1..]);
    }
  }

}

=== FILE: autoscroll.dfy ===
/** Autoscroll target selection (src/index.jsx:208-239, 257-320, 357-375).
    Every registered scroll container publishes a "hot zone" band along its
    top and bottom edge; while dragging, the innermost container whose band
    holds the cursor and which can still scroll that way becomes the active
    scroll node, with an intensity from 1 to 6 that grows towards the edge
    (negative for upwards). */
module Autoscroll {
  import opened Options
  import opened Geometry
  import opened Seqs
  import Offsets

  /** The height of each hot-zone band: a fifth of the container, but at
      least 15 (or half the container when that is smaller), and at most
      100. */
  function HotZoneHeight(h: real): (r: real)
    ensures r <= 100.0
    ensures h >= 0.0 ==> 0.0 <= r <= h / 2.0
    ensures h >= 30.0 ==> r >= 15.0
    ensures 75.0 <= h <= 500.0 ==> r == h / 5.0
    ensures h >= 500.0 ==> r == 100.0
  {
    Min(100.0, Max(h * 0.2, Min(h * 0.5, 15.0)))
  }

  /** A container's entry in the scroll store: its id, the two bands and
      whether it can scroll further up or down. */
  datatype ScrollNode<I> = ScrollNode(
    id: I, topRect: Rect, bottomRect: Rect, canScrollUp: bool, canScrollDown: bool)

  /** `setRect` of `ScrollListener`: the top band keeps the container's top
      edge, the bottom band its bottom edge, and both get the hot-zone
      height; for a container of non-negative height both bands lie inside
      it. */
  function MakeScrollNode<I>(id: I, rect: Rect, canScrollUp: bool, canScrollDown: bool): (n: ScrollNode<I>)
    ensures n.id == id && n.canScrollUp == canScrollUp && n.canScrollDown == canScrollDown
    ensures n.topRect.top == rect.top && n.bottomRect.Bottom() == rect.Bottom()
    ensures n.topRect.height == HotZoneHeight(rect.height) == n.bottomRect.height
    ensures rect.height >= 0.0 ==>
      forall p :: IsWithin(p, n.topRect) || IsWithin(p, n.bottomRect) ==> IsWithin(p, rect)
  {
    var h := HotZoneHeight(rect.height);
    ScrollNode(id, rect.(height := h), rect.(top := rect.Bottom() - h, height := h),
               canScrollUp, canScrollDown)
  }

  /** JavaScript's `Math.ceil`. */
  function Ceil(x: real): (c: int)
    ensures c as real - 1.0 < x <= c as real
  {
    -((-x).Floor)
  }

  lemma CeilMonotone(x: real, y: real)
    requires x <= y
    ensures Ceil(x) <= Ceil(y)
  {
  }

  /** A scroll intensity, or NaN: a band of height 0 divides 0 by 0, and
      NaN propagates through `ceil`, `max` and negation. */
  datatype Intensity = Level(n: int) | NaN

  /** The intensity for a point in the top band: -6 at the top edge, rising
      to -1 towards the band's inner edge. */
  function TopIntensity(p: Point, band: Rect): (r: Intensity)
    requires IsWithin(p, band)
    ensures r.NaN? <==> band.height == 0.0
    ensures r.Level? ==> -6 <= r.n <= -1
    ensures p.y == band.top && band.height > 0.0 ==> r == Level(-6)
  {
    if band.height == 0.0 then NaN
    else
      var rel := (p.y - band.top) / band.height;
      Level(-(if Ceil((1.0 - rel) * 6.0) >= 1 then Ceil((1.0 - rel) * 6.0) else 1))
  }

  /** The intensity for a point in the bottom band: 6 at the bottom edge,
      falling to 1 towards the band's inner edge. */
  function BottomIntensity(p: Point, band: Rect): (r: Intensity)
    requires IsWithin(p, band)
    ensures r.NaN? <==> band.height == 0.0
    ensures r.Level? ==> 1 <= r.n <= 6
    ensures p.y == band.Bottom() && band.height > 0.0 ==> r == Level(6)
  {
    if band.height == 0.0 then NaN
    else
      var rel := (band.Bottom() - p.y) / band.height;
      Level(if Ceil((1.0 - rel) * 6.0) >= 1 then Ceil((1.0 - rel) * 6.0) else 1)
  }

  lemma DivMonotone(a: real, b: real, h: real)
    requires a <= b && h > 0.0
    ensures a / h <= b / h
  {
    var d := b / h - a / h;
    assert d * h == b - a;
  }

  /** The magnitude never decreases as the point moves towards the band's
      outer edge: upwards in the top band, downwards in the bottom band. */
  lemma IntensityGrowsTowardsEdge(band: Rect, p: Point, q: Point)
    requires IsWithin(p, band) && IsWithin(q, band) && band.height > 0.0
    ensures q.y <= p.y ==> TopIntensity(q, band).n <= TopIntensity(p, band).n
    ensures p.y <= q.y ==> BottomIntensity(p, band).n <= BottomIntensity(q, band).n
  {
    var h := band.height;
    if q.y <= p.y {
      var relP := (p.y - band.top) / h;
      var relQ := (q.y - band.top) / h;
      DivMonotone(q.y - band.top, p.y - band.top, h);
      CeilMonotone((1.0 - relP) * 6.0, (1.0 - relQ) * 6.0);
    }
    if p.y <= q.y {
      var relP := (band.Bottom() - p.y) / h;
      var relQ := (band.Bottom() - q.y) / h;
      DivMonotone(band.Bottom() - q.y, band.Bottom() - p.y, h);
      CeilMonotone((1.0 - relP) * 6.0, (1.0 - relQ) * 6.0);
    }
  }

  /** The active scroll node: which container, how fast and in which
      direction. */
  datatype Active<I> = Active(id: I, intensity: Intensity)

  /** A node is chosen when the cursor is in its top band and it can scroll
      up, or when the cursor is in its bottom band but not its top band and
      it can scroll down. */
  predicate Qualifies<I>(p: Point, n: ScrollNode<I>) {
    || (IsWithin(p, n.topRect) && n.canScrollUp)
    || (!IsWithin(p, n.topRect) && IsWithin(p, n.bottomRect) && n.canScrollDown)
  }

  /** What a qualifying node is activated with: negative for the top band,
      positive for the bottom band. */
  function Activation<I>(p: Point, n: ScrollNode<I>): (a: Active<I>)
    requires Qualifies(p, n)
    ensures a.id == n.id
    ensures a.intensity.Level? ==> 1 <= a.intensity.n <= 6 || -6 <= a.intensity.n <= -1
    ensures a.intensity.Level? ==> (a.intensity.n < 0 <==> IsWithin(p, n.topRect))
  {
    if IsWithin(p, n.topRect) then Active(n.id, TopIntensity(p, n.topRect))
    else Active(n.id, BottomIntensity(p, n.bottomRect))
  }

  /** `updateActiveScrollNode`: scan the nodes (innermost first) and take the
      first one that qualifies; none when no node does. */
  function Select<I>(p: Point, nodes: seq<ScrollNode<I>>): (r: Option<Active<I>>)
    ensures r.None? <==> forall i :: 0 <= i < |nodes| ==> !Qualifies(p, nodes[i])
    ensures r.Some? ==> exists i :: && 0 <= i < |nodes| && Qualifies(p, nodes[i])
                                    && (forall j :: 0 <= j < i ==> !Qualifies(p, nodes[j]))
                                    && r.value == Activation(p, nodes[i])
    decreases |nodes|
  {
    if nodes == [] then None
    else
      var n := nodes[0];
      var rest := Select(p, nodes[1..]);
      assert forall i :: 0 < i < |nodes| ==> nodes[i] == nodes[1..][i - 1];
      if IsWithin(p, n.topRect) then
        if n.canScrollUp then Some(Active(n.id, TopIntensity(p, n.topRect)))
        else TailAnswerFits(p, nodes, rest); rest
      else if IsWithin(p, n.bottomRect) then
        var intensity := BottomIntensity(p, n.bottomRect);
        if n.canScrollDown then Some(Active(n.id, intensity))
        else TailAnswerFits(p, nodes, rest); rest
      else TailAnswerFits(p, nodes, rest); rest
  }

  /** Once the head does not qualify, the answer for the tail is the answer
      for the whole list. */
  lemma TailAnswerFits<I>(p: Point, nodes: seq<ScrollNode<I>>, rest: Option<Active<I>>)
    requires nodes != [] && !Qualifies(p, nodes[0])
    requires rest.None? <==> forall i :: 0 <= i < |nodes[1..]| ==> !Qualifies(p, nodes[1..][i])
    requires rest.Some? ==> exists i :: && 0 <= i < |nodes[1..]| && Qualifies(p, nodes[1..][i])
                                       && (forall j :: 0 <= j < i ==> !Qualifies(p, nodes[1..][j]))
                                       && rest.value == Activation(p, nodes[1..][i])
    ensures rest.None? <==> forall i :: 0 <= i < |nodes| ==> !Qualifies(p, nodes[i])
    ensures rest.Some? ==> exists i :: && 0 <= i < |nodes| && Qualifies(p, nodes[i])
                                       && (forall j :: 0 <= j < i ==> !Qualifies(p, nodes[j]))
                                       && rest.value == Activation(p, nodes[i])
  {
    assert forall i :: 0 < i < |nodes| ==> nodes[i] == nodes[1..][i - 1];
    if rest.Some? {
      var i :| && 0 <= i < |nodes[1..]| && Qualifies(p, nodes[1..][i])
               && (forall j :: 0 <= j < i ==> !Qualifies(p, nodes[1..][j]))
               && rest.value == Activation(p, nodes[1..][i]);
      assert forall j :: 0 < j < i + 1 ==> nodes[j] == nodes[1..][j - 1];
      assert Qualifies(p, nodes[i + 1]);
    }
  }

  /** A node whose top band holds the cursor but which cannot scroll up is
      skipped outright: its bottom band is not consulted even when it holds
      the cursor too and the node could scroll down. */
  lemma TopBandShadowsBottom<I>(p: Point, n: ScrollNode<I>, rest: seq<ScrollNode<I>>)
    requires IsWithin(p, n.topRect) && !n.canScrollUp
    ensures Select(p, [n] + rest) == Select(p, rest)
  {
    assert ([n] + rest)[1..] == rest;
  }

  /** `setActiveScrollNode`: the store keeps the previous object (so nothing
      subscribed to it re-runs) exactly when both are set, with the same id
      and the same, non-NaN, intensity; in every case the stored value
      agrees with `next` on id and intensity. */
  datatype ActiveUpdate<I> = ActiveUpdate(active: Option<Active<I>>, keptPrevious: bool)

  predicate SameSelection<I(==)>(a: Active<I>, b: Active<I>) {
    a.id == b.id && a.intensity.Level? && b.intensity.Level? && a.intensity.n == b.intensity.n
  }

  function SetActive<I(==)>(prev: Option<Active<I>>, next: Option<Active<I>>): (u: ActiveUpdate<I>)
    ensures u.keptPrevious <==> prev.Some? && next.Some? && SameSelection(prev.value, next.value)
    ensures u.active == next
    ensures u.keptPrevious ==> u.active == prev
  {
    if next.None? || prev.None? then ActiveUpdate(next, false)
    else if next.value.id == prev.value.id && prev.value.intensity.Level? && next.value.intensity.Level?
            && prev.value.intensity.n == next.value.intensity.n then ActiveUpdate(prev, true)
    else ActiveUpdate(next, false)
  }

  /** Re-selecting the same container with the same intensity keeps the
      store unchanged; a NaN intensity is never equal to itself and always
      replaces. */
  lemma ReselectKeeps<I>(a: Active<I>)
    ensures a.intensity.Level? ==> SetActive(Some(a), Some(a)).keptPrevious
    ensures a.intensity.NaN? ==> !SetActive(Some(a), Some(a)).keptPrevious
  {
  }

  /** The scroll-container store: the `nodes` map (key insertion order plus
      contents), `reverseNodes` (its values, last inserted first) and the
      active scroll node. */
  datatype ScrollStore<I> = ScrollStore(
    ids: seq<I>, nodes: map<I, ScrollNode<I>>, reverseNodes: seq<ScrollNode<I>>,
    active: Option<Active<I>>)

  /** The map's values in key insertion order. */
  function Values<I>(ids: seq<I>, nodes: map<I, ScrollNode<I>>): (vs: seq<ScrollNode<I>>)
    requires forall k :: k in ids ==> k in nodes
    ensures |vs| == |ids| && forall i :: 0 <= i < |ids| ==> vs[i] == nodes[ids[i]]
  {
    seq(|ids|, i requires 0 <= i < |ids| => nodes[ids[i]])
  }

  /** Keys listed once each and exactly the map's keys; every entry carries
      its own id; `reverseNodes` is the values reversed; the active node, if
      any, is one of the registered containers. */
  ghost predicate ValidStore<I(!new)>(st: ScrollStore<I>) {
    && Distinct(st.ids)
    && (forall k :: k in st.ids <==> k in st.nodes)
    && (forall k :: k in st.nodes ==> st.nodes[k].id == k)
    && st.reverseNodes == Reverse(Values(st.ids, st.nodes))
    && (st.active.Some? ==> st.active.value.id in st.nodes)
  }

  function EmptyStore<I(!new)>(): (st: ScrollStore<I>)
    ensures ValidStore(st) && st.reverseNodes == [] && st.active.None?
  {
    ScrollStore([], map[], [], None)
  }

  /** `setNode(id, info)` with an object or null: an object replaces the
      entry (a new key goes last in the order); null deletes the entry and
      clears the active node when it was this container. `reverseNodes` is
      recomputed either way. */
  function SetNode<I(==,!new)>(st: ScrollStore<I>, id: I, info: Option<ScrollNode<I>>): (r: ScrollStore<I>)
    requires ValidStore(st)
    requires info.Some? ==> info.value.id == id
    ensures ValidStore(r)
    ensures info.Some? ==> r.nodes == st.nodes[id := info.value] && r.active == st.active
    ensures info.Some? ==> r.ids == (if id in st.nodes then st.ids else st.ids + [id])
    ensures info.None? ==> r.nodes == st.nodes - {id} && r.ids == Without(st.ids, id)
    ensures info.None? ==> (r.active.None? <==> st.active.None? || st.active.value.id == id)
    ensures info.None? && st.active.Some? && st.active.value.id != id ==> r.active == st.active
  {
    match info
    case Some(v) =>
      var ids := if id in st.nodes then st.ids else st.ids + [id];
      var nodes := st.nodes[id := v];
      assert Distinct(ids) by {
        if id !in st.nodes {
          forall i, j | 0 <= i < j < |ids| ensures ids[i] != ids[j] {
            if j == |st.ids| {
              assert ids[i] == st.ids[i];
            }
          }
        }
      }
      ScrollStore(ids, nodes, Reverse(Values(ids, nodes)), st.active)
    case None =>
      var ids := Without(st.ids, id);
      var nodes := st.nodes - {id};
      WithoutDistinct(st.ids, id);
      var active := if st.active.Some? && st.active.value.id == id then None else st.active;
      ScrollStore(ids, nodes, Reverse(Values(ids, nodes)), active)
  }

  /** `setNode(id, prev => ({...prev, ...getScrollInfo(node)}))` after a
      scroll: only the two flags of the entry change. */
  function UpdateScrollFlags<I(==,!new)>(st: ScrollStore<I>, id: I, canScrollUp: bool, canScrollDown: bool): (r: ScrollStore<I>)
    requires ValidStore(st) && id in st.nodes
    ensures ValidStore(r) && r.ids == st.ids && r.active == st.active
    ensures r.nodes.Keys == st.nodes.Keys
    ensures r.nodes[id].topRect == st.nodes[id].topRect && r.nodes[id].bottomRect == st.nodes[id].bottomRect
    ensures r.nodes[id].canScrollUp == canScrollUp && r.nodes[id].canScrollDown == canScrollDown
    ensures forall k :: k in st.nodes && k != id ==> r.nodes[k] == st.nodes[k]
  {
    var prev := st.nodes[id];
    SetNode(st, id, Some(prev.(canScrollUp := canScrollUp, canScrollDown := canScrollDown)))
  }

  /** Adding a container that was not registered and removing it again
      gives back the store. */
  lemma SetThenRemove<I(!new)>(st: ScrollStore<I>, id: I, v: ScrollNode<I>)
    requires ValidStore(st) && id !in st.nodes && v.id == id
    ensures SetNode(SetNode(st, id, Some(v)), id, None) == st
  {
    var r := SetNode(st, id, Some(v));
    var u := SetNode(r, id, None);
    assert r.ids == st.ids + [id] && r.nodes == st.nodes[id := v];
    assert u.nodes == st.nodes by {
      assert u.nodes == st.nodes[id := v] - {id};
    }
    assert id !in st.ids;
    WithoutAppendAbsent(st.ids, id);
    assert u.ids == st.ids;
    assert u.active == st.active by {
      assert st.active.Some? ==> st.active.value.id != id;
    }
    assert u.reverseNodes == st.reverseNodes;
  }

  /** The drag store's listener: on every change of the drag info (and of
      `reverseNodes`), re-select with the raw cursor, that is the current
      position with the mouse offset taken off again. */
  function UpdateActive<I(!new)>(st: ScrollStore<I>, info: Option<Offsets.DragInfo>): (r: ScrollStore<I>)
    requires ValidStore(st)
    ensures ValidStore(r)
    ensures r.(active := st.active) == st
    ensures info.None? ==> r == st
    ensures info.Some? ==> r.active == Select(SubPos(info.value.currentPos, info.value.mouseOffset), st.reverseNodes)
  {
    match info
    case None => st
    case Some(d) =>
      var next := Select(SubPos(d.currentPos, d.mouseOffset), st.reverseNodes);
      ActiveIsRegistered(st, SubPos(d.currentPos, d.mouseOffset));
      st.(active := SetActive(st.active, next).active)
  }

  /** The selected container is always a registered one. */
  lemma ActiveIsRegistered<I(!new)>(st: ScrollStore<I>, p: Point)
    requires ValidStore(st)
    ensures Select(p, st.reverseNodes).Some? ==> Select(p, st.reverseNodes).value.id in st.nodes
  {
    ReverseNodesRegistered(st);
  }

  /** Every entry of `reverseNodes` is a registered container. */
  lemma ReverseNodesRegistered<I(!new)>(st: ScrollStore<I>)
    requires ValidStore(st)
    ensures forall i :: 0 <= i < |st.reverseNodes| ==> st.reverseNodes[i].id in st.nodes
  {
    var vs := Values(st.ids, st.nodes);
    forall i | 0 <= i < |st.reverseNodes| ensures st.reverseNodes[i].id in st.nodes {
      var k := |vs| - 1 - i;
      assert st.reverseNodes[i] == vs[k] == st.nodes[st.ids[k]];
      assert st.ids[k] in st.ids;
    }
  }

  /** After a move, the autoscroll cursor is exactly the raw mouse
      position. */
  lemma SelectsWithRawCursor<I(!new)>(st: ScrollStore<I>, info: Offsets.DragInfo, raw: Point)
    requires ValidStore(st)
    ensures UpdateActive(st, Offsets.Move(Some(info), raw)).active == Select(raw, st.reverseNodes)
  {
  }

}

=== FILE: clipping.dfy ===
/** The geometry tracker's arithmetic: clipping a node's bounding box by its
    scroll parents (src/index.jsx:727-744) and turning the result into the
    published rectangle (src/index.jsx:749-770). Measuring boxes and finding
    scroll parents are DOM queries; their results are inputs here. */
module Clipping {
  import opened Geometry

  /** A scroll parent as `getScrollParents` reports it: the window, or an
      element with its measured box. */
  datatype Parent = Window | Element(box: Box)

  /** The running result of `intersectWithParents`. */
  datatype Clip = Clip(top: real, bottom: real, left: real, right: real,
                       invisibleTop: real, invisibleLeft: real) {
    function ToBox(): Box { Box(top, left, bottom, right) }
  }

  /** Closed containment in a measured box. */
  predicate InBox(p: Point, b: Box) {
    b.left <= p.x <= b.right && b.top <= p.y <= b.bottom
  }

  /** The point lies inside every element scroll parent; the window clips
      nothing. */
  ghost predicate InAllParents(p: Point, parents: seq<Parent>) {
    forall i :: 0 <= i < |parents| && parents[i].Element? ==> InBox(p, parents[i].box)
  }

  function Start(child: Box): Clip {
    Clip(child.top, child.bottom, child.left, child.right, 0.0, 0.0)
  }

  // ---------------------------------------------------------------------
  // As written: the left edge is never moved (line 739 assigns `top`).
  // ---------------------------------------------------------------------

  /** One parent, as written: the window changes nothing; an element moves
      top, bottom and right, while `invisibleLeft` grows by the overhang on
      the left although the left edge stays. */
  function StepAsWritten(c: Clip, p: Parent): (r: Clip)
    ensures p.Window? ==> r == c
    ensures p.Element? ==> r.left == c.left
    ensures r.invisibleTop - r.top == c.invisibleTop - c.top
    ensures r.top >= c.top && r.bottom <= c.bottom && r.right <= c.right
    ensures r.invisibleLeft >= c.invisibleLeft
    ensures p.Element? && p.box.left > c.left ==> r.invisibleLeft == c.invisibleLeft + (p.box.left - c.left)
  {
    match p
    case Window => c
    case Element(b) =>
      var nextTop := Max(b.top, c.top);
      var nextLeft := Max(b.left, c.left);
      Clip(nextTop, Min(b.bottom, c.bottom), c.left, Min(b.right, c.right),
           c.invisibleTop + (nextTop - c.top), c.invisibleLeft + (nextLeft - c.left))
  }

  function FoldAsWritten(c: Clip, parents: seq<Parent>): (r: Clip)
    ensures r.left == c.left
    ensures r.invisibleTop - r.top == c.invisibleTop - c.top
    ensures r.top >= c.top && r.bottom <= c.bottom && r.right <= c.right
    ensures r.invisibleLeft >= c.invisibleLeft
    decreases |parents|
  {
    if parents == [] then c else FoldAsWritten(StepAsWritten(c, parents[0]), parents[1..])
  }

  /** `intersectWithParents` as the source has it. */
  function IntersectAsWritten(child: Box, parents: seq<Parent>): (r: Clip)
    ensures r.left == child.left
    ensures r.invisibleTop == r.top - child.top >= 0.0
    ensures r.bottom <= child.bottom && r.right <= child.right
    ensures r.invisibleLeft >= 0.0
  {
    FoldAsWritten(Start(child), parents)
  }

  // ---------------------------------------------------------------------
  // Corrected: the left edge moves with the clip, like the top edge.
  // ---------------------------------------------------------------------

  /** One parent, corrected: the window changes nothing; an element clips
      the box to exactly its intersection with the element's box, and each
      invisible amount grows by as much as its edge moves. */
  function Step(c: Clip, p: Parent): (r: Clip)
    ensures p.Window? ==> r == c
    ensures r.invisibleTop - r.top == c.invisibleTop - c.top
    ensures r.invisibleLeft - r.left == c.invisibleLeft - c.left
    ensures r.top >= c.top && r.left >= c.left && r.bottom <= c.bottom && r.right <= c.right
    ensures forall q :: InBox(q, r.ToBox()) <==> InBox(q, c.ToBox()) && (p.Element? ==> InBox(q, p.box))
  {
    match p
    case Window => c
    case Element(b) =>
      var nextTop := Max(b.top, c.top);
      var nextLeft := Max(b.left, c.left);
      Clip(nextTop, Min(b.bottom, c.bottom), nextLeft, Min(b.right, c.right),
           c.invisibleTop + (nextTop - c.top), c.invisibleLeft + (nextLeft - c.left))
  }

  function Fold(c: Clip, parents: seq<Parent>): (r: Clip)
    ensures r.invisibleTop - r.top == c.invisibleTop - c.top
    ensures r.invisibleLeft - r.left == c.invisibleLeft - c.left
    ensures r.top >= c.top && r.left >= c.left && r.bottom <= c.bottom && r.right <= c.right
    ensures forall p :: InBox(p, r.ToBox()) <==> InBox(p, c.ToBox()) && InAllParents(p, parents)
    decreases |parents|
  {
    if parents == [] then c
    else
      var r := Fold(Step(c, parents[0]), parents[1..]);
      assert forall p :: InAllParents(p, parents) <==>
        (parents[0].Element? ==> InBox(p, parents[0].box)) && InAllParents(p, parents[1..]) by {
        forall p ensures InAllParents(p, parents) <==>
          (parents[0].Element? ==> InBox(p, parents[0].box)) && InAllParents(p, parents[1..]) {
          if InAllParents(p, parents) {
            forall i | 0 <= i < |parents[1..]| && parents[1..][i].Element?
              ensures InBox(p, parents[1..][i].box) {
              assert parents[1..][i] == parents[i + 1];
            }
          }
          if (parents[0].Element? ==> InBox(p, parents[0].box)) && InAllParents(p, parents[1..]) {
            forall i | 0 <= i < |parents| && parents[i].Element? ensures InBox(p, parents[i].box) {
              if i > 0 {
                assert parents[i] == parents[1..][i - 1];
              }
            }
          }
        }
      }
      r
  }

  /** `intersectWithParents` with line 739 reading `left = nextLeft`: the
      result is exactly the intersection of the child with every element
      parent, and the invisible amounts are how far each edge moved. */
  function IntersectWithParents(child: Box, parents: seq<Parent>): (r: Clip)
    ensures r.invisibleTop == r.top - child.top >= 0.0
    ensures r.invisibleLeft == r.left - child.left >= 0.0
    ensures r.bottom <= child.bottom && r.right <= child.right
    ensures forall p :: InBox(p, r.ToBox()) <==> InBox(p, child) && InAllParents(p, parents)
  {
    assert Start(child).ToBox() == child;
    Fold(Start(child), parents)
  }

  /** What the rectangle listener measures: the viewport, or a node. */
  datatype Target = Viewport(clientWidth: real, clientHeight: real)
                  | Node(box: Box, scrollParents: seq<Parent>)

  function ToRect(c: Clip): Rect {
    Rect(c.top, c.left, c.right - c.left, c.bottom - c.top, c.invisibleTop, c.invisibleLeft)
  }

  /** The rectangle listener's `update`, with the corrected clip. A hit in the
      published rectangle is a hit in the node that no scroll parent hides,
      and the zone-local position is measured from the node's own origin. */
  function Measure(t: Target): (r: Rect)
    ensures t.Viewport? ==> r == Rect(0.0, 0.0, t.clientWidth, t.clientHeight, 0.0, 0.0)
    ensures t.Node? ==> forall p :: IsWithin(p, r) <==> InBox(p, t.box) && InAllParents(p, t.scrollParents)
    ensures t.Node? ==> forall p :: GetRelPosition(r, p) == SubPos(p, Point(t.box.left, t.box.top))
    ensures r.invisibleTop >= 0.0 && r.invisibleLeft >= 0.0
  {
    match t
    case Viewport(w, h) => Rect(0.0, 0.0, w, h, 0.0, 0.0)
    case Node(b, ps) =>
      var c := IntersectWithParents(b, ps);
      assert forall p :: IsWithin(p, ToRect(c)) <==> InBox(p, c.ToBox());
      ToRect(c)
  }

  /** The same `update` over the clip as written. */
  function MeasureAsWritten(t: Target): (r: Rect)
    ensures t.Node? ==> r.left == t.box.left && r.invisibleTop == r.top - t.box.top
  {
    match t
    case Viewport(w, h) => Rect(0.0, 0.0, w, h, 0.0, 0.0)
    case Node(b, ps) => ToRect(IntersectAsWritten(b, ps))
  }

}

=== FILE: clipping_finding.dfy ===
/** A concrete input on which the clip as written (src/index.jsx:739 assigns
    `top` where `left` is meant) publishes a wrong rectangle, next to what the
    corrected clip publishes for it: a 100x100 node at the origin inside a
    scroll parent whose left edge is at x = 10. */
module ClippingFinding {
  import opened Geometry
  import opened Clipping

  /** As written, the node is published as starting at x = 0 with 10px
      recorded as invisible on the left. */
  lemma LeftClippedAsWrittenRect()
    ensures MeasureAsWritten(Node(Box(0.0, 0.0, 100.0, 100.0), [Element(Box(0.0, 10.0, 100.0, 100.0))]))
         == Rect(0.0, 0.0, 100.0, 100.0, 0.0, 10.0)
  {
    var ps := [Element(Box(0.0, 10.0, 100.0, 100.0))];
    var b := Box(0.0, 0.0, 100.0, 100.0);
    var c := StepAsWritten(Start(b), ps[0]);
    assert c == Clip(0.0, 100.0, 0.0, 100.0, 0.0, 10.0);
    assert ps[1..] == [];
    calc {
      IntersectAsWritten(b, ps);
      FoldAsWritten(Start(b), ps);
      FoldAsWritten(c, ps[1..]);
      c;
    }
  }

  /** Corrected, the node is published as starting at x = 10. */
  lemma LeftClippedRect()
    ensures Measure(Node(Box(0.0, 0.0, 100.0, 100.0), [Element(Box(0.0, 10.0, 100.0, 100.0))]))
         == Rect(0.0, 10.0, 90.0, 100.0, 0.0, 10.0)
  {
    var ps := [Element(Box(0.0, 10.0, 100.0, 100.0))];
    var b := Box(0.0, 0.0, 100.0, 100.0);
    var c := Step(Start(b), ps[0]);
    assert c == Clip(0.0, 100.0, 10.0, 100.0, 0.0, 10.0);
    assert ps[1..] == [];
    assert Fold(c, ps[1..]) == c;
    assert IntersectWithParents(b, ps) == c;
  }

  /** As written, a point hidden behind the parent's left edge is a hit, and
      the zone-local x of a visible point is shifted by the 10px that were
      clipped; corrected, neither happens. */
  lemma LeftClipAsWrittenIsWrong()
    ensures IsWithin(Point(5.0, 50.0), Rect(0.0, 0.0, 100.0, 100.0, 0.0, 10.0))
    ensures !IsWithin(Point(5.0, 50.0), Rect(0.0, 10.0, 90.0, 100.0, 0.0, 10.0))
    ensures !InBox(Point(5.0, 50.0), Box(0.0, 10.0, 100.0, 100.0))
    ensures GetRelPosition(Rect(0.0, 0.0, 100.0, 100.0, 0.0, 10.0), Point(20.0, 50.0)) == Point(30.0, 50.0)
    ensures GetRelPosition(Rect(0.0, 10.0, 90.0, 100.0, 0.0, 10.0), Point(20.0, 50.0)) == Point(20.0, 50.0)
  {
  }

}

=== FILE: geometry.dfy ===
/** Points and rectangles in screen (client) coordinates, and the small
    arithmetic the engine does on them (src/index.jsx:169-175, 796-799). */
module Geometry {

  datatype Point = Point(x: real, y: real)

  /** A bounding box as the browser measures it: four edges. */
  datatype Box = Box(top: real, left: real, bottom: real, right: real) {
    function Width(): real { right - left }
    function Height(): real { bottom - top }
  }

  /** The rectangle the engine publishes for a node: position and size, plus
      how much of the node's natural top/left lies clipped out of view. */
  datatype Rect = Rect(top: real, left: real, width: real, height: real,
                       invisibleTop: real, invisibleLeft: real) {
    function Bottom(): real { top + height }
    function Right(): real { left + width }
  }

  /** `addPos`: translation by `q`, commutative, with `SubPos` undoing it. */
  function AddPos(p: Point, q: Point): (r: Point)
    ensures r == Point(q.x + p.x, q.y + p.y)
    ensures SubPos(r, q) == p && SubPos(r, p) == q
  {
    Point(p.x + q.x, p.y + q.y)
  }

  /** `subPos`: the displacement from `q` to `p`, zero exactly for equal
      points. */
  function SubPos(p: Point, q: Point): (r: Point)
    ensures r == Point(0.0, 0.0) <==> p == q
    ensures Point(q.x + r.x, q.y + r.y) == p
  {
    Point(p.x - q.x, p.y - q.y)
  }

  /** Subtraction undoes addition: the raw cursor is recovered from an
      offset-adjusted position. */
  lemma SubAddCancel(p: Point, q: Point)
    ensures SubPos(AddPos(p, q), q) == p
  {
  }

  /** Closed containment: the edges belong to the rectangle. */
  function IsWithin(p: Point, r: Rect): (b: bool)
    ensures b <==> r.left <= p.x <= r.Right() && r.top <= p.y <= r.Bottom()
    ensures b ==> r.width >= 0.0 && r.height >= 0.0
  {
    p.x >= r.left && p.x <= r.left + r.width && p.y >= r.top && p.y <= r.top + r.height
  }

  /** Every corner of a rectangle of non-negative size is a hit, while a
      rectangle clipped to negative size contains no point at all. */
  lemma WithinClosed(r: Rect, p: Point)
    ensures r.width >= 0.0 && r.height >= 0.0 ==>
      IsWithin(Point(r.left, r.top), r) && IsWithin(Point(r.Right(), r.Bottom()), r) &&
      IsWithin(Point(r.left, r.Bottom()), r) && IsWithin(Point(r.Right(), r.top), r)
    ensures r.width < 0.0 || r.height < 0.0 ==> !IsWithin(p, r)
  {
  }

  /** The point relative to the node's own content origin: the visible
      top-left corner, shifted back by the clipped-away amounts. */
  function GetRelPosition(r: Rect, pos: Point): (q: Point)
    ensures AddPos(q, Point(r.left - r.invisibleLeft, r.top - r.invisibleTop)) == pos
  {
    Point(pos.x - r.left + r.invisibleLeft, pos.y - r.top + r.invisibleTop)
  }

  function Centre(b: Box): (c: Point)
    ensures b.left <= b.right ==> b.left <= c.x <= b.right
    ensures b.top <= b.bottom ==> b.top <= c.y <= b.bottom
    ensures c.x - b.left == b.right - c.x && c.y - b.top == b.bottom - c.y
  {
    Point(b.left + b.Width() / 2.0, b.top + b.Height() / 2.0)
  }

  function Abs(r: real): (a: real)
    ensures a >= 0.0 && (a == r || a == -r)
  {
    if r < 0.0 then -r else r
  }

  function Min(a: real, b: real): (m: real)
    ensures m <= a && m <= b && (m == a || m == b)
  {
    if a <= b then a else b
  }

  function Max(a: real, b: real): (m: real)
    ensures m >= a && m >= b && (m == a || m == b)
  {
    if a >= b then a else b
  }

}

=== FILE: gesture.dfy ===
/** The per-draggable gesture state machine of `Draggable`
    (src/index.jsx:163-167, 618-699): `idle` -> `pending` on a plain primary
    mouse-down, `pending` -> `started` once the cursor has moved 5 px or more
    on either axis, and back to `idle` on cancel or once the started drag has
    been handed to the drag controller. The handlers React installs for the
    current state become one transition function over explicit events. */
module Gesture {
  import opened Options
  import opened Geometry

  const PrimaryButton: int := 0
  const SloppyClickThreshold: real := 5.0

  /** `isSloppyClickThresholdExceeded`: the cursor has left the open square
      of half-width 5 around the start point. */
  function ThresholdExceeded(original: Point, current: Point): (r: bool)
    ensures !r <==>
      && original.x - SloppyClickThreshold < current.x < original.x + SloppyClickThreshold
      && original.y - SloppyClickThreshold < current.y < original.y + SloppyClickThreshold
  {
    Abs(current.x - original.x) >= SloppyClickThreshold ||
    Abs(current.y - original.y) >= SloppyClickThreshold
  }

  /** The threshold is a distance: it does not depend on which point is the
      start, and a cursor that has not moved never exceeds it. */
  lemma ThresholdSymmetric(a: Point, b: Point)
    ensures ThresholdExceeded(a, b) == ThresholdExceeded(b, a)
    ensures !ThresholdExceeded(a, a)
  {
  }

  /** The gesture data a started drag carries. */
  datatype GestureData = GestureData(startPos: Point, currentPos: Point, isTouch: bool)

  datatype DragState =
    | Idle
    | Pending(startPos: Point)
    | Started(data: GestureData)

  datatype MouseEvent = MouseEvent(
    pos: Point, button: int, defaultPrevented: bool,
    ctrlKey: bool, metaKey: bool, shiftKey: bool, altKey: bool)

  datatype Event = MouseDown(e: MouseEvent) | MouseMove(e: MouseEvent) | MouseUp(e: MouseEvent)

  /** The new state and whether the handler called `preventDefault`. */
  datatype Outcome = Outcome(state: DragState, preventDefault: bool)

  /** The idle mouse-down guard: not already handled, primary button, no
      modifier key. */
  predicate StartsGesture(e: MouseEvent) {
    && !e.defaultPrevented
    && e.button == PrimaryButton
    && !(e.ctrlKey || e.metaKey || e.shiftKey || e.altKey)
  }

  /** What rendering does before any handler runs: a pending gesture of a
      draggable that has become disabled is cancelled on the spot. */
  function Settle(s: DragState, disabled: bool): (r: DragState)
    ensures disabled ==> !r.Pending?
    ensures !disabled ==> r == s
    ensures r == s || (s.Pending? && r == Idle)
  {
    if s.Pending? && disabled then Idle else s
  }

  /** The handler installed for state `s` reacting to one event. An idle
      draggable that is disabled, and a started one, have no handlers. */
  function Handle(s: DragState, disabled: bool, ev: Event): (o: Outcome)
    ensures o.preventDefault ==> o.state != s && !o.state.Idle?
    ensures s.Started? ==> o == Outcome(s, false)
    ensures o.state.Started? ==> s.Started? || s.Pending?
  {
    match s
    case Idle =>
      if !disabled && ev.MouseDown? && StartsGesture(ev.e) then Outcome(Pending(ev.e.pos), true)
      else Outcome(s, false)
    case Pending(startPos) =>
      if disabled then Outcome(Idle, false)
      else if ev.MouseMove? then
        if ev.e.button != PrimaryButton then Outcome(s, false)
        else if ThresholdExceeded(startPos, ev.e.pos) then
          Outcome(Started(GestureData(startPos, ev.e.pos, false)), true)
        else Outcome(s, false)
      else Outcome(Idle, false)
    case Started(_) => Outcome(s, false)
  }

  /** One event as the component sees it: render settles the state, then the
      installed handler runs. */
  function Step(s: DragState, disabled: bool, ev: Event): (r: DragState)
    ensures s.Started? ==> r == s
    ensures disabled ==> r == Idle || r == s
    ensures r.Started? && !s.Started? ==>
      s.Pending? && ev.MouseMove? && ThresholdExceeded(s.startPos, ev.e.pos) && r.data.startPos == s.startPos
  {
    Handle(Settle(s, disabled), disabled, ev).state
  }

  /** An idle draggable becomes pending exactly on a mouse-down that passes
      the guard, at the cursor's position, and only when enabled. */
  lemma IdleToPending(disabled: bool, ev: Event, p: Point)
    ensures Step(Idle, disabled, ev) == Pending(p) <==>
      !disabled && ev.MouseDown? && StartsGesture(ev.e) && p == ev.e.pos
    ensures Step(Idle, disabled, ev) == Idle || Step(Idle, disabled, ev).Pending?
  {
  }

  /** A pending gesture starts exactly on an enabled primary-button move that
      exceeds the threshold; the start position is kept and the drag is not
      a touch drag. */
  lemma PendingToStarted(start: Point, disabled: bool, ev: Event)
    ensures Step(Pending(start), disabled, ev).Started? <==>
      !disabled && ev.MouseMove? && ev.e.button == PrimaryButton && ThresholdExceeded(start, ev.e.pos)
    ensures Step(Pending(start), disabled, ev).Started? ==>
      Step(Pending(start), disabled, ev).data == GestureData(start, ev.e.pos, false)
  {
  }

  /** A pending gesture is cancelled by a mouse-up, by a mouse-down and by
      the draggable becoming disabled; any other event leaves it pending
      or starts it. */
  lemma PendingCancels(start: Point, disabled: bool, ev: Event)
    ensures disabled || ev.MouseUp? || ev.MouseDown? ==> Step(Pending(start), disabled, ev) == Idle
    ensures !disabled && ev.MouseMove? ==> Step(Pending(start), disabled, ev) != Idle
  {
  }

  /** The layout effect that hands a started gesture to the drag controller
      (`onItemDragStart`) and resets the draggable to idle. It only does so
      while the child has attached its `ref` (`mounted`); otherwise the
      gesture stays started and nothing is handed over. */
  datatype Launched = Launched(state: DragState, handedOver: Option<GestureData>)

  function Launch(s: DragState, mounted: bool): (r: Launched)
    ensures r.handedOver.Some? <==> s.Started? && mounted
    ensures r.handedOver.Some? ==> r.handedOver.value == s.data && r.state == Idle
    ensures r.handedOver.None? ==> r.state == s
    ensures r.state.Started? ==> !mounted
  {
    if s.Started? && mounted then Launched(Idle, Some(s.data)) else Launched(s, None)
  }

  /** A sequence of events, each one after the previous has been handled.
      Started is absorbing: a started draggable has no handlers, so only
      `Launch` leaves that state. */
  function Run(s: DragState, disabled: bool, evs: seq<Event>): (r: DragState)
    ensures s.Started? ==> r == s
    decreases |evs|
  {
    if evs == [] then s else Run(Step(s, disabled, evs[0]), disabled, evs[1..])
  }

  /** A draggable whose child never attaches its `ref` is stuck once
      started: no event and no further launch moves it. */
  lemma UnmountedStaysStarted(d: GestureData, disabled: bool, evs: seq<Event>)
    ensures Launch(Run(Started(d), disabled, evs), false).state == Started(d)
    ensures Launch(Run(Started(d), disabled, evs), false).handedOver.None?
  {
  }

  /** No drag without crossing the threshold: a run that ends started either
      was started all along or went through a primary-button move, at the
      current position, at least 5 px away from where the gesture began. */
  lemma {:induction false} StartedOnlyPastThreshold(s: DragState, disabled: bool, evs: seq<Event>)
    ensures var r := Run(s, disabled, evs);
      r.Started? ==>
        r == s ||
        (&& ThresholdExceeded(r.data.startPos, r.data.currentPos)
         && !r.data.isTouch
         && exists i :: 0 <= i < |evs| && evs[i].MouseMove? && evs[i].e.button == PrimaryButton
                        && evs[i].e.pos == r.data.currentPos)
    decreases |evs|
  {
    if evs != [] {
      var s' := Step(s, disabled, evs[0]);
      StartedOnlyPastThreshold(s', disabled, evs[1..]);
      var r := Run(s, disabled, evs);
      assert r == Run(s', disabled, evs[1..]);
      if r.Started? && r != s {
        if r == s' {
          PendingToStarted(s.startPos, disabled, evs[0]);
          assert evs[0].MouseMove? && evs[0].e.button == PrimaryButton && evs[0].e.pos == r.data.currentPos;
        } else {
          var i :| 0 <= i < |evs[1..]| && evs[1..][i].MouseMove? && evs[1..][i].e.button == PrimaryButton
                   && evs[1..][i].e.pos == r.data.currentPos;
          assert evs[i + 1] == evs[1..][i];
        }
      }
    }
  }

  /** A disabled draggable never starts a drag, whatever the events. */
  lemma {:induction false} DisabledNeverStarts(s: DragState, evs: seq<Event>)
    requires !s.Started?
    ensures !Run(s, true, evs).Started?
    ensures evs != [] ==> Run(s, true, evs) == Idle
    decreases |evs|
  {
    if evs != [] {
      DisabledNeverStarts(Step(s, true, evs[0]), evs[1..]);
    }
  }

}

=== FILE: legacy.dfy ===
/** The earlier implementation, src/index.js: the same gesture threshold and
    offset arithmetic, but drop zones register plain drop functions in a
    list that a mouse-up walks with `some`, and zones decide "over" with a
    store selector instead of a resolver pass. */
module Legacy {
  import opened Options
  import opened Geometry
  import opened Seqs
  import Gesture
  import Offsets

  /** `addDropFn(fn)`: the new function goes first. */
  function AddDropFn<F>(fns: seq<F>, f: F): (r: seq<F>)
    ensures |r| == |fns| + 1 && r[0] == f && r[1..] == fns
  {
    [f] + fns
  }

  /** The unregister closure: `dropFns.filter(f => f !== fn)`. */
  function RemoveDropFn<F(==,!new)>(fns: seq<F>, f: F): (r: seq<F>)
    ensures f !in r
    ensures forall g :: g != f ==> (g in r <==> g in fns)
  {
    Without(fns, f)
  }

  /** Registering a function and later unregistering it gives back the
      list, even when other functions were registered in between: those
      stay, in their order. */
  lemma UnregisterRemovesOnlyItself<F(!new)>(later: seq<F>, fns: seq<F>, f: F)
    requires f !in later && f !in fns
    ensures RemoveDropFn(later + AddDropFn(fns, f), f) == later + fns
  {
    WithoutPrefix(later, AddDropFn(fns, f), f);
    assert AddDropFn(fns, f)[1..] == fns;
    WithoutAbsent(fns, f);
  }

  /** `dropFns.some(fn => fn({item}) !== false)`: the functions called, in
      order, and whether one of them answered something other than `false`.
      `stops(f)` is whether `f`'s answer for this item is not `false`. */
  datatype Dispatched<F> = Dispatched(called: seq<F>, handled: bool)

  function Dispatch<F>(fns: seq<F>, stops: F -> bool): (d: Dispatched<F>)
    ensures |d.called| <= |fns| && d.called == fns[..|d.called|]
    ensures forall i :: 0 <= i < |d.called| - 1 ==> !stops(fns[i])
    ensures d.handled <==> exists i :: 0 <= i < |fns| && stops(fns[i])
    ensures d.handled ==> |d.called| > 0 && stops(fns[|d.called| - 1])
    ensures !d.handled ==> d.called == fns
    decreases |fns|
  {
    if fns == [] then Dispatched([], false)
    else if stops(fns[0]) then Dispatched([fns[0]], true)
    else
      var rest := Dispatch(fns[1..], stops);
      assert forall i :: 0 < i < |fns| ==> fns[i] == fns[1..][i - 1];
      assert fns[..1 + |rest.called|] == [fns[0]] + fns[1..][..|rest.called|];
      Dispatched([fns[0]] + rest.called, rest.handled)
  }

  /** Every drop function the earlier engine registers returns `undefined`,
      which is not `false`: a mouse-up calls only the first function in the
      list, the one registered last. */
  lemma FirstDropFnHandles<F>(fns: seq<F>)
    requires fns != []
    ensures Dispatch(fns, _ => true) == Dispatched([fns[0]], true)
  {
  }

  /** The legacy drag info: no touch flag. */
  datatype LegacyDragInfo = LegacyDragInfo(
    mouseOffset: Point, startPos: Point, currentPos: Point, dimensions: Offsets.Dimensions)

  /** `onHandleItemDragStart`: the same element-centre arithmetic as the
      current engine. */
  function HandleItemDragStart(startPos: Point, currentPos: Point, node: Box): (r: LegacyDragInfo)
    ensures r.currentPos == Centre(node)
    ensures SubPos(r.currentPos, r.startPos) == SubPos(currentPos, startPos)
    ensures SubPos(r.currentPos, r.mouseOffset) == currentPos
  {
    var centerX := node.left + node.Width() / 2.0;
    var centerY := node.top + node.Height() / 2.0;
    var mouseOffset := Point(centerX - currentPos.x, centerY - currentPos.y);
    LegacyDragInfo(mouseOffset, AddPos(startPos, mouseOffset), AddPos(currentPos, mouseOffset),
                   Offsets.Dimensions(node.Width(), node.Height()))
  }

  /** Both implementations start a drag with the same offset, positions and
      dimensions. */
  lemma DragStartAgrees(g: Gesture.GestureData, node: Box)
    ensures var l := HandleItemDragStart(g.startPos, g.currentPos, node);
      var c := Offsets.BeginDrag(g, node);
      l.mouseOffset == c.mouseOffset && l.startPos == c.startPos &&
      l.currentPos == c.currentPos && l.dimensions == c.dimensions
  {
  }

  /** The legacy drag store: the session and the registered drop functions. */
  datatype LegacyStore<I, F> = LegacyStore(
    item: Option<I>, dragInfo: Option<LegacyDragInfo>, dropFns: seq<F>)

  /** The store's `set({item, dragInfo})` action. It destructures its
      argument, so any other key passed to it is ignored and a missing
      `item` or `dragInfo` is stored as `undefined`, i.e. `None`. */
  function LegacySet<I, F>(st: LegacyStore<I, F>, item: Option<I>, info: Option<LegacyDragInfo>): (r: LegacyStore<I, F>)
    ensures r.item == item && r.dragInfo == info
    ensures r.dropFns == st.dropFns
  {
    st.(item := item, dragInfo := info)
  }

  /** The mouse-move handler: `setDragInfo(prev => ({dragInfo: {...}}))`.
      It reads `prev.startPos` without a null check, so a missing drag info
      is a `TypeError` (`None`). Otherwise only the current position
      changes. */
  function LegacyMove<I, F>(st: LegacyStore<I, F>, raw: Point): (r: Option<LegacyStore<I, F>>)
    ensures r.Some? <==> st.dragInfo.Some?
    ensures r.Some? ==>
      && r.value.dragInfo.Some?
      && r.value.dragInfo.value.(currentPos := st.dragInfo.value.currentPos) == st.dragInfo.value
      && SubPos(r.value.dragInfo.value.currentPos, r.value.dragInfo.value.mouseOffset) == raw
    ensures r.Some? ==> r.value.(dragInfo := st.dragInfo) == st
  {
    match st.dragInfo
    case None => None
    case Some(prev) =>
      Some(st.(dragInfo := Some(LegacyDragInfo(prev.mouseOffset, prev.startPos,
                                               AddPos(raw, prev.mouseOffset), prev.dimensions))))
  }

  /** The mouse-up handler: dispatch to the drop functions, then call the
      store's `set` action with `{item: null, setDragInfo: null}`. The action
      only reads `item` and `dragInfo`, so the stray `setDragInfo` key is
      dropped and the drag info becomes `undefined`: the session ends. */
  function MouseUp<I, F>(st: LegacyStore<I, F>, stops: F -> bool): (r: (LegacyStore<I, F>, Dispatched<F>))
    ensures r.1 == Dispatch(st.dropFns, stops)
    ensures r.1.handled <==> exists i :: 0 <= i < |st.dropFns| && stops(st.dropFns[i])
    ensures r.0.item.None? && r.0.dragInfo.None?
    ensures r.0.dropFns == st.dropFns
  {
    (LegacySet(st, None, None), Dispatch(st.dropFns, stops))
  }

  /** The zone selector `isOver`: a measured rectangle, a drag info, and
      the current position inside the rectangle, edges included. When it
      holds, the zone-local position lies within the zone's extent. */
  function IsOver<I, F>(st: LegacyStore<I, F>, rect: Option<Rect>): (b: bool)
    ensures b ==> rect.Some? && st.dragInfo.Some?
    ensures b ==> var q := RelPosition(rect.value, st.dragInfo.value.currentPos);
      0.0 <= q.x <= rect.value.width && 0.0 <= q.y <= rect.value.height
  {
    rect.Some? && st.dragInfo.Some? && IsWithin(st.dragInfo.value.currentPos, rect.value)
  }

  /** After a mouse move to `raw`, a zone is over exactly when the cursor
      shifted by the grab offset lies in its rectangle. */
  lemma {:induction false} MoveThenIsOver<I, F>(st: LegacyStore<I, F>, raw: Point, rect: Rect)
    requires st.dragInfo.Some?
    ensures LegacyMove(st, raw).Some?
    ensures IsOver(LegacyMove(st, raw).value, Some(rect))
        <==> IsWithin(AddPos(raw, st.dragInfo.value.mouseOffset), rect)
  {
  }

  /** `getRelPosition` of the legacy file: no correction for clipped-away
      parts, so it agrees with the current engine's exactly when nothing is
      clipped. */
  function RelPosition(r: Rect, pos: Point): (q: Point)
    ensures AddPos(q, Point(r.left, r.top)) == pos
    ensures r.invisibleTop == 0.0 && r.invisibleLeft == 0.0 ==> q == GetRelPosition(r, pos)
    ensures q == GetRelPosition(r, pos) <==> r.invisibleTop == 0.0 && r.invisibleLeft == 0.0
  {
    Point(pos.x - r.left, pos.y - r.top)
  }

  /** After a mouse-up no zone is over, the drop functions are still
      registered, and the next drag, once started, follows the cursor. */
  lemma MouseUpEndsSession<I, F>(st: LegacyStore<I, F>, stops: F -> bool,
                                 item: I, info: LegacyDragInfo, raw: Point, rect: Option<Rect>)
    ensures var after := MouseUp(st, stops).0;
      !IsOver(after, rect) && after.dropFns == st.dropFns &&
      LegacyMove(LegacySet(after, Some(item), Some(info)), raw).Some?
  {
  }

  /** The legacy `Draggable` handlers (src/index.js:181-212): the same
      guard, threshold and cancels as the current state machine, with no
      `disabled` prop and no touch flag. */
  function LegacyHandle(s: Gesture.DragState, ev: Gesture.Event): (o: Gesture.Outcome)
    ensures o.preventDefault ==> o.state != s
    ensures o.state.Started? ==> !o.state.data.isTouch || s.Started?
  {
    match s
    case Idle =>
      if ev.MouseDown? && Gesture.StartsGesture(ev.e) then Gesture.Outcome(Gesture.Pending(ev.e.pos), true)
      else Gesture.Outcome(s, false)
    case Pending(startPos) =>
      (match ev
       case MouseMove(e) =>
         if e.button != Gesture.PrimaryButton then Gesture.Outcome(s, false)
         else if Gesture.ThresholdExceeded(startPos, e.pos) then
           Gesture.Outcome(Gesture.Started(Gesture.GestureData(startPos, e.pos, false)), true)
         else Gesture.Outcome(s, false)
       case MouseUp(_) => Gesture.Outcome(Gesture.Idle, false)
       case MouseDown(_) => Gesture.Outcome(Gesture.Idle, false))
    case Started(_) => Gesture.Outcome(s, false)
  }

  /** The legacy state machine is the current one with `disabled` false. */
  lemma LegacyHandleAgrees(s: Gesture.DragState, ev: Gesture.Event)
    ensures LegacyHandle(s, ev) == Gesture.Handle(s, false, ev)
    ensures LegacyHandle(s, ev).state == Gesture.Step(s, false, ev)
  {
  }

}

=== FILE: offsets.dfy ===
/** The drag-info offset arithmetic of the current engine
    (`onItemDragStart`, src/index.jsx:541-554, and the mouse-move handler of
    `DragElement`, src/index.jsx:395-403). Once a drag starts, every
    position is expressed in "element-centre space": the cursor position
    plus the offset from the grab point to the dragged element's centre. */
module Offsets {
  import opened Options
  import opened Geometry
  import Gesture

  datatype Dimensions = Dimensions(width: real, height: real)

  datatype DragInfo = DragInfo(
    mouseOffset: Point, startPos: Point, currentPos: Point,
    dimensions: Dimensions, isTouch: bool)

  /** `onItemDragStart`: the offset is the element centre minus the cursor,
      and both the start and the current position are shifted by it. */
  function BeginDrag(g: Gesture.GestureData, node: Box): (r: DragInfo)
    ensures r.currentPos == Centre(node)
    ensures SubPos(r.currentPos, r.startPos) == SubPos(g.currentPos, g.startPos)
    ensures SubPos(r.currentPos, r.mouseOffset) == g.currentPos
    ensures SubPos(r.startPos, r.mouseOffset) == g.startPos
    ensures r.dimensions == Dimensions(node.Width(), node.Height()) && r.isTouch == g.isTouch
  {
    var c := Centre(node);
    var mouseOffset := Point(c.x - g.currentPos.x, c.y - g.currentPos.y);
    DragInfo(mouseOffset, AddPos(g.startPos, mouseOffset), AddPos(g.currentPos, mouseOffset),
             Dimensions(node.Width(), node.Height()), g.isTouch)
  }

  /** One mouse move: `prev && {...prev, currentPos: raw + mouseOffset}`. No
      drag info stays none; otherwise only the current position changes, and
      subtracting the offset gives back the raw cursor. */
  function Move(info: Option<DragInfo>, raw: Point): (r: Option<DragInfo>)
    ensures r.Some? <==> info.Some?
    ensures r.Some? ==> SubPos(r.value.currentPos, r.value.mouseOffset) == raw
    ensures r.Some? ==> r.value.(currentPos := info.value.currentPos) == info.value
  {
    match info
    case None => None
    case Some(prev) => Some(prev.(currentPos := AddPos(raw, prev.mouseOffset)))
  }

  /** A sequence of mouse moves, in order. */
  function Moves(info: Option<DragInfo>, raws: seq<Point>): (r: Option<DragInfo>)
    ensures r.Some? <==> info.Some?
    decreases |raws|
  {
    if raws == [] then info else Moves(Move(info, raws[0]), raws[1..])
  }

  /** However many moves follow, the offset, start position, dimensions and
      touch flag are those of the start, and the current position is the
      last raw cursor plus the offset. */
  lemma {:induction false} MovesKeepFrame(info: DragInfo, raws: seq<Point>)
    ensures Moves(Some(info), raws).Some?
    ensures Moves(Some(info), raws).value.(currentPos := info.currentPos) == info
    ensures raws != [] ==> Moves(Some(info), raws).value.currentPos == AddPos(raws[|raws| - 1], info.mouseOffset)
    decreases |raws|
  {
    if raws != [] {
      var next := Move(Some(info), raws[0]);
      MovesKeepFrame(next.value, raws[1..]);
      if |raws| > 1 {
        assert raws[1..][|raws[1..]| - 1] == raws[|raws| - 1];
      }
    }
  }

  /** The dragged element's CSS translation (`currentPos - startPos`,
      src/index.jsx:458-459) equals the cursor's displacement since the
      gesture began, at drag start and after any moves. */
  lemma TranslationFollowsCursor(g: Gesture.GestureData, node: Box, raws: seq<Point>)
    requires raws != []
    ensures var r := Moves(Some(BeginDrag(g, node)), raws).value;
      SubPos(r.currentPos, r.startPos) == SubPos(raws[|raws| - 1], g.startPos)
  {
    MovesKeepFrame(BeginDrag(g, node), raws);
  }

  /** The worked example: with an offset of (10, 5), a move to (150, 120)
      puts the current position at (160, 125). */
  lemma MoveExample(info: DragInfo)
    requires info.mouseOffset == Point(10.0, 5.0)
    ensures Move(Some(info), Point(150.0, 120.0)).value.currentPos == Point(160.0, 125.0)
  {
  }

}

=== FILE: options.dfy ===
/** The optional value the JavaScript code expresses with `null`. */
module Options {

  datatype Option<+T> = None | Some(value: T)

}

=== FILE: resolver.dfy ===
/** The drop-zone resolver: `update` of `createDropZoneManager`
    (src/index.jsx:76-95) over the zones' `setOver`, `onDragOver` and `onDrop`
    closures (src/index.jsx:858-877). One pass visits the zones in list
    order (top-painted first); the first zone whose rectangle contains the
    point claims it and every other zone is forced to "not over". */
module Resolver {
  import opened Options
  import opened Geometry

  /** A registered zone as the resolver sees it: its identity, the current
      value of its rectangle cell (`getRect()`, null before the first
      measurement), its over flag and which user callbacks it has. */
  datatype DropZone<K> = DropZone(key: K, rect: Option<Rect>, isOver: bool,
                                  hasOnDragOver: bool, hasOnDrop: bool)

  /** A call of the user's callbacks. `Leave` is `onDragOver({item: null,
      position: null})`; positions are zone-local. */
  datatype Callback<I> = DragOver(item: Option<I>, position: Point)
                       | Leave
                       | Drop(item: Option<I>, position: Point)

  /** The zones after a pass, and what each of them (by position) fired. */
  datatype Pass<K, I> = Pass(zones: seq<DropZone<K>>, fired: seq<seq<Callback<I>>>)

  predicate Hits<K>(z: DropZone<K>, p: Point) {
    z.rect.Some? && IsWithin(p, z.rect.value)
  }

  /** The position of the first zone hit by `p`, or `|zones|` if none is. */
  function HitIndex<K>(zones: seq<DropZone<K>>, p: Point): (i: nat)
    ensures i <= |zones|
    ensures forall j :: 0 <= j < i ==> !Hits(zones[j], p)
    ensures i < |zones| ==> Hits(zones[i], p)
  {
    if zones == [] then 0
    else if Hits(zones[0], p) then 0
    else 1 + HitIndex(zones[1..], p)
  }

  /** The zone that claims the point in a pass; `|zones|` when the point is
      null or the scan has already been told it found one. */
  function Winner<K>(zones: seq<DropZone<K>>, pos: Option<Point>, found: bool): (w: nat)
    ensures w <= |zones|
    ensures w < |zones| ==> pos.Some? && Hits(zones[w], pos.value)
  {
    if found || pos.None? then |zones| else HitIndex(zones, pos.value)
  }

  /** The zone's `setOver(next)`: a leave callback fires exactly on the
      over -> not-over edge (when the zone has an `onDragOver`). */
  function SetOver<K, I>(z: DropZone<K>, next: bool): (r: (DropZone<K>, seq<Callback<I>>))
    ensures r.0.isOver == next && r.0.(isOver := z.isOver) == z
    ensures r.1 == [] || r.1 == [Leave]
    ensures r.1 == [Leave] <==> z.isOver && !next && z.hasOnDragOver
  {
    (z.(isOver := next), if z.isOver && !next && z.hasOnDragOver then [Leave] else [])
  }

  /** What a zone fires in a pass, stated per zone: the winner's own callback
      (drop or drag-over, if it has one), then a leave if the zone was over
      and is not over afterwards. */
  function Expected<K, I>(z: DropZone<K>, win: bool, pos: Option<Point>, dropped: bool,
                          item: Option<I>): seq<Callback<I>>
    requires win ==> pos.Some? && Hits(z, pos.value)
  {
    var claimed :=
      if !win then []
      else if dropped then (if z.hasOnDrop then [Drop(item, GetRelPosition(z.rect.value, pos.value))] else [])
      else (if z.hasOnDragOver then [DragOver(item, GetRelPosition(z.rect.value, pos.value))] else []);
    var overAfter := win && !dropped;
    claimed + (if z.isOver && !overAfter && z.hasOnDragOver then [Leave] else [])
  }

  /** One iteration of the scan: the zone wins exactly when the scan has
      not found a winner yet and the zone is hit; it then fires what
      `Expected` says and ends over only on a non-drop pass. */
  function Visit<K, I>(z: DropZone<K>, found: bool, pos: Option<Point>, dropped: bool,
                       item: Option<I>): (r: (DropZone<K>, seq<Callback<I>>, bool))
    ensures var win := !found && pos.Some? && Hits(z, pos.value);
      && r.0 == z.(isOver := !dropped && win)
      && r.1 == Expected(z, win, pos, dropped, item)
      && r.2 == (found || win)
  {
    if !found && pos.Some? && Hits(z, pos.value) then
      var rel := GetRelPosition(z.rect.value, pos.value);
      if dropped then
        var claimed := if z.hasOnDrop then [Drop(item, rel)] else [];
        var (z', leave) := SetOver<K, I>(z, false);
        (z', claimed + leave, true)
      else
        var claimed := if z.hasOnDragOver then [DragOver(item, rel)] else [];
        var (z', leave) := SetOver<K, I>(z, true);
        (z', claimed + leave, true)
    else
      var (z', leave) := SetOver<K, I>(z, false);
      (z', leave, found)
  }

  /** The scan from a given `found` flag on. */
  function UpdateFrom<K, I>(zones: seq<DropZone<K>>, pos: Option<Point>, dropped: bool,
                            item: Option<I>, found: bool): (r: Pass<K, I>)
    ensures |r.zones| == |zones| && |r.fired| == |zones|
    ensures forall i :: 0 <= i < |zones| ==> r.zones[i].(isOver := zones[i].isOver) == zones[i]
    decreases |zones|
  {
    if zones == [] then Pass([], [])
    else
      var (z', cbs, found') := Visit(zones[0], found, pos, dropped, item);
      var rest := UpdateFrom(zones[1..], pos, dropped, item, found');
      Pass([z'] + rest.zones, [cbs] + rest.fired)
  }

  /** Past the first zone, the winner is one further on than the winner of
      the rest of the scan. */
  lemma WinnerStep<K>(zones: seq<DropZone<K>>, pos: Option<Point>, found: bool)
    requires zones != []
    ensures var found' := found || (pos.Some? && Hits(zones[0], pos.value));
      var w := Winner(zones, pos, found);
      && (w == 0 <==> !found && pos.Some? && Hits(zones[0], pos.value))
      && (w != 0 ==> w == 1 + Winner(zones[1..], pos, found'))
  {
  }

  /** Scanning from a given `found` flag, zone i ends over exactly when it
      is the winner of a non-drop pass, and fires what `Expected` says. */
  lemma {:induction false} UpdateFromAt<K, I>(zones: seq<DropZone<K>>, pos: Option<Point>, dropped: bool,
                                             item: Option<I>, found: bool, i: nat)
    requires i < |zones|
    ensures var r := UpdateFrom(zones, pos, dropped, item, found);
      var win := i == Winner(zones, pos, found);
      && r.zones[i] == zones[i].(isOver := !dropped && win)
      && r.fired[i] == Expected(zones[i], win, pos, dropped, item)
    decreases |zones|
  {
    var v := Visit(zones[0], found, pos, dropped, item);
    var rest := UpdateFrom(zones[1..], pos, dropped, item, v.2);
    var r := UpdateFrom(zones, pos, dropped, item, found);
    assert r == Pass([v.0] + rest.zones, [v.1] + rest.fired);
    WinnerStep(zones, pos, found);
    if i == 0 {
      assert r.zones[0] == v.0 && r.fired[0] == v.1;
    } else {
      assert r.zones[i] == rest.zones[i - 1] && r.fired[i] == rest.fired[i - 1];
      UpdateFromAt(zones[1..], pos, dropped, item, v.2, i - 1);
      assert zones[1..][i - 1] == zones[i];
    }
  }

  /** `update(currentPos, wasDropped, dragItem)`: a null position counts as
      already found, so no zone claims it. */
  function Update<K, I>(zones: seq<DropZone<K>>, pos: Option<Point>, dropped: bool,
                        item: Option<I>): (r: Pass<K, I>)
    ensures |r.zones| == |zones| && |r.fired| == |zones|
    ensures forall i :: 0 <= i < |zones| ==>
      r.zones[i] == zones[i].(isOver := pos.Some? && !dropped && i == HitIndex(zones, pos.value))
    ensures forall i :: 0 <= i < |zones| ==>
      r.fired[i] == Expected(zones[i], pos.Some? && i == HitIndex(zones, pos.value), pos, dropped, item)
  {
    var r := UpdateFrom(zones, pos, dropped, item, pos.None?);
    assert forall i :: 0 <= i < |zones| ==>
      && r.zones[i] == zones[i].(isOver := pos.Some? && !dropped && i == HitIndex(zones, pos.value))
      && r.fired[i] == Expected(zones[i], pos.Some? && i == HitIndex(zones, pos.value), pos, dropped, item)
    by {
      forall i | 0 <= i < |zones|
        ensures r.zones[i] == zones[i].(isOver := pos.Some? && !dropped && i == HitIndex(zones, pos.value))
        ensures r.fired[i] == Expected(zones[i], pos.Some? && i == HitIndex(zones, pos.value), pos, dropped, item)
      {
        UpdateFromAt(zones, pos, dropped, item, pos.None?, i);
      }
    }
    r
  }

  ghost predicate AtMostOneOver<K>(zones: seq<DropZone<K>>) {
    forall i, j :: 0 <= i < |zones| && 0 <= j < |zones| && zones[i].isOver && zones[j].isOver ==> i == j
  }

  /** After any pass at most one zone is over, even where rectangles overlap:
      the one earliest in stacking order among those containing the point. */
  lemma UpdateLeavesAtMostOneOver<K, I>(zones: seq<DropZone<K>>, pos: Option<Point>, dropped: bool,
                                        item: Option<I>)
    ensures AtMostOneOver(Update(zones, pos, dropped, item).zones)
    ensures forall i :: 0 <= i < |zones| && Update(zones, pos, dropped, item).zones[i].isOver ==>
      pos.Some? && Hits(zones[i], pos.value) && forall j :: 0 <= j < i ==> !Hits(zones[j], pos.value)
  {
  }

  /** Only the winning zone gets `onDragOver`/`onDrop` with a position; every
      other zone fires at most a leave. */
  lemma OnlyWinnerClaims<K, I>(zones: seq<DropZone<K>>, pos: Option<Point>, dropped: bool,
                               item: Option<I>, i: nat)
    requires i < |zones|
    requires pos.None? || i != HitIndex(zones, pos.value)
    ensures Update(zones, pos, dropped, item).fired[i] ==
      (if zones[i].isOver && zones[i].hasOnDragOver then [Leave] else [])
    ensures !Update(zones, pos, dropped, item).zones[i].isOver
  {
  }

  /** A drop pass leaves no zone over; the winner's callbacks are its drop
      followed by its leave. */
  lemma DropLeavesNothingOver<K, I>(zones: seq<DropZone<K>>, p: Point, item: Option<I>)
    ensures forall i :: 0 <= i < |zones| ==> !Update(zones, Some(p), true, item).zones[i].isOver
    ensures var w := HitIndex(zones, p);
      w < |zones| && zones[w].hasOnDrop ==>
        Update(zones, Some(p), true, item).fired[w][0] == Drop(item, GetRelPosition(zones[w].rect.value, p))
  {
  }

  /** A zone that was over and is now covered by a zone earlier in stacking
      order fires exactly one leave and no drag-over. */
  lemma OccludedZoneLeavesOnce<K, I>(zones: seq<DropZone<K>>, p: Point, item: Option<I>, i: nat)
    requires i < |zones| && zones[i].isOver && zones[i].hasOnDragOver
    requires HitIndex(zones, p) < i
    ensures Update(zones, Some(p), false, item).fired[i] == [Leave]
  {
  }

  /** A pass after which nothing is over fires nothing when repeated with a
      null position: clearing the session after a drop is silent. */
  lemma ClearAfterDropIsSilent<K, I>(zones: seq<DropZone<K>>, p: Point, item: Option<I>, item': Option<I>)
    ensures var after := Update(zones, Some(p), true, item).zones;
      forall i :: 0 <= i < |zones| ==> Update(after, None, false, item').fired[i] == []
  {
  }

}

=== FILE: scroll_registry.dfy ===
/** The reference-counted registry of scroll containers in the drag store
    (`registerScrollContainer`, src/index.jsx:105-151). A JavaScript `Map`
    from node to count is modelled as the counts plus the map's key
    insertion order; `scrollNodes` is that order reversed, recomputed only
    when a key was added or deleted. */
module ScrollRegistry {
  import opened Seqs

  datatype Registry<N> = Registry(counts: map<N, nat>, keys: seq<N>, scrollNodes: seq<N>)

  /** The counts of a node; 0 for a node that is not a key. */
  function Count<N(==,!new)>(counts: map<N, nat>, n: N): nat {
    if n in counts then counts[n] else 0
  }

  /** The keys are listed once each, in some order, and every count is
      positive. */
  ghost predicate WellFormed<N(!new)>(counts: map<N, nat>, keys: seq<N>) {
    && Distinct(keys)
    && (forall n :: n in counts <==> n in keys)
    && (forall n :: n in counts ==> counts[n] >= 1)
  }

  ghost predicate Valid<N(!new)>(r: Registry<N>) {
    WellFormed(r.counts, r.keys) && r.scrollNodes == Reverse(r.keys)
  }

  function Empty<N(==,!new)>(): (r: Registry<N>)
    ensures Valid(r) && r.scrollNodes == []
  {
    Registry(map[], [], [])
  }

  /** The copy of the map being updated by one `forEach`, and whether the
      key list changed (`listModified`). */
  datatype Tally<N> = Tally(counts: map<N, nat>, keys: seq<N>, modified: bool)

  /** One node of a registration: a positive count is incremented in place;
      otherwise the node gets count 1, appended as a new key. */
  function RegisterOne<N(==,!new)>(t: Tally<N>, n: N): (r: Tally<N>)
    ensures Count(r.counts, n) == Count(t.counts, n) + 1 && r.counts - {n} == t.counts - {n}
    ensures r.counts.Keys == t.counts.Keys + {n}
    ensures r.modified == (t.modified || Count(t.counts, n) == 0)
  {
    if n in t.counts && t.counts[n] > 0 then Tally(t.counts[n := t.counts[n] + 1], t.keys, t.modified)
    else Tally(t.counts[n := 1], if n in t.counts then t.keys else t.keys + [n], true)
  }

  lemma RegisterOneFacts<N(!new)>(t: Tally<N>, n: N)
    requires WellFormed(t.counts, t.keys)
    ensures var t' := RegisterOne(t, n);
      && WellFormed(t'.counts, t'.keys)
      && (forall m :: Count(t'.counts, m) == Count(t.counts, m) + (if m == n then 1 else 0))
      && t.counts.Keys <= t'.counts.Keys
      && |t.keys| <= |t'.keys| && t'.keys[..|t.keys|] == t.keys
      && (forall i :: |t.keys| <= i < |t'.keys| ==> t'.keys[i] !in t.counts.Keys)
      && t'.modified == (t.modified || |t'.keys| > |t.keys|)
  {
    var t' := RegisterOne(t, n);
    if n !in t.counts {
      forall i, j | 0 <= i < j < |t'.keys| ensures t'.keys[i] != t'.keys[j] {
        if j == |t.keys| {
          assert t'.keys[i] == t.keys[i];
        }
      }
    }
  }

  function RegisterAll<N(==,!new)>(t: Tally<N>, nodes: seq<N>): (r: Tally<N>)
    requires WellFormed(t.counts, t.keys)
    ensures WellFormed(r.counts, r.keys)
    ensures |t.keys| <= |r.keys| && r.keys[..|t.keys|] == t.keys
    ensures forall i :: |t.keys| <= i < |r.keys| ==> r.keys[i] !in t.counts.Keys
    ensures r.modified == (t.modified || |r.keys| > |t.keys|)
    decreases |nodes|
  {
    if nodes == [] then t
    else
      var t' := RegisterOne(t, nodes[0]);
      RegisterOneFacts(t, nodes[0]);
      var r := RegisterAll(t', nodes[1..]);
      PrefixChain(t.keys, t'.keys, r.keys, t.counts.Keys, t'.counts.Keys);
      r
  }

  /** A registration adds to each node's count the number of times the node
      is listed. */
  lemma {:induction false} RegisterAllCount<N(!new)>(t: Tally<N>, nodes: seq<N>, n: N)
    requires WellFormed(t.counts, t.keys)
    ensures Count(RegisterAll(t, nodes).counts, n) == Count(t.counts, n) + multiset(nodes)[n]
    decreases |nodes|
  {
    if nodes != [] {
      var m := nodes[0];
      RegisterOneFacts(t, m);
      RegisterAllCount(RegisterOne(t, m), nodes[1..], n);
      MultisetHead(nodes, n);
    }
  }

  /** One node of an unregistration: a count of 1 deletes the key, any
      other count is decremented in place. */
  function UnregisterOne<N(==,!new)>(t: Tally<N>, n: N): (r: Tally<N>)
    requires n in t.counts && t.counts[n] >= 1
    ensures Count(r.counts, n) == t.counts[n] - 1 && r.counts - {n} == t.counts - {n}
    ensures r.counts.Keys == if t.counts[n] == 1 then t.counts.Keys - {n} else t.counts.Keys
    ensures r.modified == (t.modified || t.counts[n] == 1)
  {
    if t.counts[n] == 1 then Tally(t.counts - {n}, Without(t.keys, n), true)
    else Tally(t.counts[n := t.counts[n] - 1], t.keys, t.modified)
  }

  lemma UnregisterOneFacts<N(!new)>(t: Tally<N>, n: N)
    requires WellFormed(t.counts, t.keys)
    requires n in t.counts
    ensures var t' := UnregisterOne(t, n);
      && WellFormed(t'.counts, t'.keys)
      && (forall m :: Count(t'.counts, m) == Count(t.counts, m) - (if m == n then 1 else 0))
      && t'.keys == Keep(t.keys, t'.counts.Keys)
      && t'.modified == (t.modified || |t'.keys| < |t.keys|)
  {
    if t.counts[n] == 1 {
      DeleteFacts(t, n);
    } else {
      var t' := UnregisterOne(t, n);
      assert t'.counts.Keys == t.counts.Keys;
      KeepAll(t.keys, t.counts.Keys);
    }
  }

  lemma DeleteFacts<N(!new)>(t: Tally<N>, n: N)
    requires WellFormed(t.counts, t.keys)
    requires n in t.counts && t.counts[n] == 1
    ensures var t' := UnregisterOne(t, n);
      && WellFormed(t'.counts, t'.keys)
      && (forall m :: Count(t'.counts, m) == Count(t.counts, m) - (if m == n then 1 else 0))
      && t'.keys == Keep(t.keys, t'.counts.Keys)
      && t'.modified && |t'.keys| < |t.keys|
  {
    var counts := t.counts - {n};
    var keys := Without(t.keys, n);
    assert counts.Keys == t.counts.Keys - {n};
    KeepAll(t.keys, t.counts.Keys);
    KeepThenWithout(t.keys, t.counts.Keys, n);
    assert keys == Keep(t.keys, counts.Keys);
    KeepDistinct(t.keys, counts.Keys);
    assert n in t.keys;
  }

  /** The tail of an unregistration may still be applied after its head. */
  lemma UnregisterTailAllowed<N(!new)>(t: Tally<N>, nodes: seq<N>)
    requires WellFormed(t.counts, t.keys) && nodes != []
    requires forall n :: n in nodes ==> multiset(nodes)[n] <= Count(t.counts, n)
    ensures nodes[0] in t.counts
    ensures forall n :: n in nodes[1..] ==> multiset(nodes[1..])[n] <= Count(UnregisterOne(t, nodes[0]).counts, n)
  {
    var n := nodes[0];
    assert nodes == [n] + nodes[1..];
    assert multiset(nodes) == multiset{n} + multiset(nodes[1..]);
    assert n in nodes;
    UnregisterOneFacts(t, n);
    forall m | m in nodes[1..]
      ensures multiset(nodes[1..])[m] <= Count(UnregisterOne(t, n).counts, m)
    {
      assert m in nodes;
    }
  }

  function UnregisterAll<N(==,!new)>(t: Tally<N>, nodes: seq<N>): (r: Tally<N>)
    requires WellFormed(t.counts, t.keys)
    requires forall n :: n in nodes ==> multiset(nodes)[n] <= Count(t.counts, n)
    ensures WellFormed(r.counts, r.keys)
    ensures r.counts.Keys <= t.counts.Keys
    ensures r.keys == Keep(t.keys, r.counts.Keys)
    ensures r.modified == (t.modified || |r.keys| < |t.keys|)
    decreases |nodes|
  {
    if nodes == [] then
      KeepAll(t.keys, t.counts.Keys);
      t
    else
      UnregisterTailAllowed(t, nodes);
      var t' := UnregisterOne(t, nodes[0]);
      UnregisterOneFacts(t, nodes[0]);
      var r := UnregisterAll(t', nodes[1..]);
      KeepKeep(t.keys, t'.counts.Keys, r.counts.Keys);
      assert t'.counts.Keys * r.counts.Keys == r.counts.Keys;
      r
  }

  /** An unregistration takes from each node's count the number of times the
      node is listed. */
  lemma {:induction false} UnregisterAllCount<N(!new)>(t: Tally<N>, nodes: seq<N>, n: N)
    requires WellFormed(t.counts, t.keys)
    requires forall n :: n in nodes ==> multiset(nodes)[n] <= Count(t.counts, n)
    ensures Count(UnregisterAll(t, nodes).counts, n) == Count(t.counts, n) - multiset(nodes)[n]
    decreases |nodes|
  {
    if nodes != [] {
      var m := nodes[0];
      UnregisterTailAllowed(t, nodes);
      UnregisterOneFacts(t, m);
      UnregisterAllCount(UnregisterOne(t, m), nodes[1..], n);
      MultisetHead(nodes, n);
    }
  }

  /** The end of either closure: the new map is stored, and `scrollNodes`
      is recomputed from its keys only when the key list changed. */
  function Publish<N>(reg: Registry<N>, t: Tally<N>): (r: Registry<N>)
    ensures r.counts == t.counts && r.keys == t.keys
    ensures t.modified ==>
      && |r.scrollNodes| == |t.keys|
      && forall i :: 0 <= i < |t.keys| ==> r.scrollNodes[i] == t.keys[|t.keys| - 1 - i]
    ensures !t.modified ==> r.scrollNodes == reg.scrollNodes
  {
    if t.modified then Registry(t.counts, t.keys, Reverse(t.keys))
    else Registry(t.counts, t.keys, reg.scrollNodes)
  }

  /** Recomputing only on a key change is enough: the stored map and key
      order stay valid, and `scrollNodes` lists exactly the counted nodes. */
  lemma PublishFacts<N(!new)>(reg: Registry<N>, t: Tally<N>)
    requires Valid(reg) && WellFormed(t.counts, t.keys)
    requires !t.modified ==> t.keys == reg.keys
    ensures Valid(Publish(reg, t))
    ensures forall n :: n in Publish(reg, t).scrollNodes <==> Count(t.counts, n) > 0
  {
    ReverseSameElements(t.keys);
  }

  /** `registerScrollContainer(nodes)`: every listed node's count goes up by
      the number of times it is listed; `scrollNodes` stays the reversed key
      order and so lists exactly the nodes with a positive count. */
  function Register<N(==,!new)>(reg: Registry<N>, nodes: seq<N>): (r: Registry<N>)
    requires Valid(reg)
    ensures Valid(r)
    ensures forall n :: Count(r.counts, n) == Count(reg.counts, n) + multiset(nodes)[n]
    ensures forall n :: n in r.scrollNodes <==> Count(r.counts, n) > 0
    ensures |reg.keys| <= |r.keys| && r.keys[..|reg.keys|] == reg.keys
    ensures forall i :: |reg.keys| <= i < |r.keys| ==> r.keys[i] !in reg.counts.Keys
  {
    var t0 := Tally(reg.counts, reg.keys, false);
    var t := RegisterAll(t0, nodes);
    forall n ensures Count(t.counts, n) == Count(reg.counts, n) + multiset(nodes)[n] {
      RegisterAllCount(t0, nodes, n);
    }
    assert !t.modified ==> t.keys == reg.keys by {
      if !t.modified {
        assert t.keys == t.keys[..|reg.keys|];
      }
    }
    PublishFacts(reg, t);
    Publish(reg, t)
  }

  /** The unregister function returned by `registerScrollContainer(nodes)`:
      every listed node's count goes down again, and a node whose count
      reaches 0 is deleted. The returned function is only ever obtained from
      that registration, which is what the requires states. */
  function Unregister<N(==,!new)>(reg: Registry<N>, nodes: seq<N>): (r: Registry<N>)
    requires Valid(reg)
    requires forall n :: n in nodes ==> multiset(nodes)[n] <= Count(reg.counts, n)
    ensures Valid(r)
    ensures forall n :: Count(r.counts, n) == Count(reg.counts, n) - multiset(nodes)[n]
    ensures forall n :: n in r.scrollNodes <==> Count(r.counts, n) > 0
    ensures r.keys == Keep(reg.keys, r.counts.Keys)
  {
    var t0 := Tally(reg.counts, reg.keys, false);
    var t := UnregisterAll(t0, nodes);
    forall n ensures Count(t.counts, n) == Count(reg.counts, n) - multiset(nodes)[n] {
      UnregisterAllCount(t0, nodes, n);
    }
    assert !t.modified ==> t.keys == reg.keys by {
      if !t.modified {
        KeepSameLength(reg.keys, t.counts.Keys);
      }
    }
    PublishFacts(reg, t);
    Publish(reg, t)
  }

  /** Positive counts determine the map. */
  lemma SameCountsSameMap<N(!new)>(a: map<N, nat>, b: map<N, nat>)
    requires forall n :: n in a ==> a[n] >= 1
    requires forall n :: n in b ==> b[n] >= 1
    requires forall n :: Count(a, n) == Count(b, n)
    ensures a == b
  {
    forall n ensures n in a <==> n in b {
      assert Count(a, n) == Count(b, n);
    }
    forall n | n in a ensures a[n] == b[n] {
      assert Count(a, n) == Count(b, n);
    }
  }

  /** Keeping only the old keys of a key list that had new keys appended
      gives back the old list. */
  lemma KeepOldKeys<N(!new)>(old_: seq<N>, grown: seq<N>, keep: set<N>)
    requires |old_| <= |grown| && grown[..|old_|] == old_
    requires forall i :: |old_| <= i < |grown| ==> grown[i] !in keep
    requires forall n :: n in old_ ==> n in keep
    ensures Keep(grown, keep) == old_
  {
    var added := grown[|old_|..];
    assert grown == old_ + added;
    forall n | n in added ensures n !in keep {
      var i :| 0 <= i < |added| && added[i] == n;
      assert grown[|old_| + i] == n;
    }
    KeepAppend(old_, added, keep);
    KeepAll(old_, keep);
    KeepNone(added, keep);
  }

  /** Unregistering undoes registering: counts, key order and the exposed
      `scrollNodes` list are all as before. */
  lemma {:induction false} UnregisterUndoesRegister<N(!new)>(reg: Registry<N>, nodes: seq<N>)
    requires Valid(reg)
    ensures var r := Register(reg, nodes);
      (forall n :: n in nodes ==> multiset(nodes)[n] <= Count(r.counts, n)) &&
      Unregister(r, nodes) == reg
  {
    var r := Register(reg, nodes);
    var u := Unregister(r, nodes);
    SameCountsSameMap(u.counts, reg.counts);
    KeepOldKeys(reg.keys, r.keys, u.counts.Keys);
    assert u.keys == reg.keys;
    assert u.scrollNodes == Reverse(reg.keys);
  }

}

=== FILE: seqs.dfy ===
/** Sequence helpers shared by the registries: reversal, first occurrence,
    order-preserving filters and duplicate-freedom. */
module Seqs {

  ghost predicate Distinct<T>(s: seq<T>) {
    forall i, j :: 0 <= i < j < |s| ==> s[i] != s[j]
  }

  /** `Array.prototype.reverse` on a copy. */
  function Reverse<T>(s: seq<T>): (r: seq<T>)
    ensures |r| == |s|
    ensures forall i :: 0 <= i < |s| ==> r[i] == s[|s| - 1 - i]
  {
    if s == [] then [] else Reverse(s[1..]) + [s[0]]
  }

  lemma ReverseSameElements<T>(s: seq<T>)
    ensures forall x :: x in Reverse(s) <==> x in s
  {
    var r := Reverse(s);
    forall x | x in s ensures x in r {
      var i :| 0 <= i < |s| && s[i] == x;
      assert r[|s| - 1 - i] == x;
    }
  }

  /** `Array.prototype.indexOf`: the first position of `x`, or -1. */
  function IndexOf<T(==)>(s: seq<T>, x: T): (i: int)
    ensures -1 <= i < |s|
    ensures i == -1 <==> x !in s
    ensures 0 <= i ==> s[i] == x && x !in s[..i]
  {
    if s == [] then -1
    else if s[0] == x then 0
    else
      var j := IndexOf(s[1..], x);
      assert s[1..][..if j < 0 then 0 else j] == s[1..1 + (if j < 0 then 0 else j)];
      if j < 0 then -1 else 1 + j
  }

  /** `s.filter(y => y !== x)`: every occurrence of `x` dropped, order kept. */
  function Without<T(==,!new)>(s: seq<T>, x: T): (r: seq<T>)
    ensures x !in r
    ensures forall y :: y in r <==> y in s && y != x
    ensures forall y :: y != x ==> multiset(r)[y] == multiset(s)[y]
    ensures |r| <= |s| && (x in s ==> |r| < |s|)
  {
    if s == [] then []
    else
      assert s == [s[0]] + s[1..];
      if s[0] == x then Without(s[1..], x) else [s[0]] + Without(s[1..], x)
  }

  /** Filtering keeps a duplicate-free list duplicate-free. */
  lemma {:induction false} WithoutDistinct<T(!new)>(s: seq<T>, x: T)
    requires Distinct(s)
    ensures Distinct(Without(s, x))
  {
    if s != [] {
      assert Distinct(s[1..]) by {
        forall i, j | 0 <= i < j < |s[1..]| ensures s[1..][i] != s[1..][j] {
          assert s[1..][i] == s[i + 1] && s[1..][j] == s[j + 1];
        }
      }
      WithoutDistinct(s[1..], x);
      if s[0] != x {
        var w := Without(s[1..], x);
        assert s[0] !in s[1..] by {
          forall j | 0 <= j < |s[1..]| ensures s[1..][j] != s[0] {
            assert s[1..][j] == s[j + 1];
          }
        }
        forall i, j | 0 <= i < j < |[s[0]] + w| ensures ([s[0]] + w)[i] != ([s[0]] + w)[j] {
          if i == 0 {
            assert ([s[0]] + w)[j] == w[j - 1];
          } else {
            assert ([s[0]] + w)[i] == w[i - 1] && ([s[0]] + w)[j] == w[j - 1];
          }
        }
      }
    }
  }

  /** Filtering out an element that was appended to a list free of it gives
      back the list. */
  lemma {:induction false} WithoutAppendAbsent<T(!new)>(s: seq<T>, x: T)
    requires x !in s
    ensures Without(s + [x], x) == s
  {
    if s == [] {
      assert Without([x], x) == Without([x][1..], x);
    } else {
      assert (s + [x])[1..] == s[1..] + [x];
      assert s[0] in s;
      WithoutAppendAbsent(s[1..], x);
      assert s == [s[0]] + s[1..];
    }
  }

  /** Filtering out an element that does not occur changes nothing. */
  lemma {:induction false} WithoutAbsent<T(!new)>(s: seq<T>, x: T)
    requires x !in s
    ensures Without(s, x) == s
  {
    if s != [] {
      assert s[0] in s;
      WithoutAbsent(s[1..], x);
      assert s == [s[0]] + s[1..];
    }
  }

  /** A prefix free of `x` passes through the filter unchanged. */
  lemma {:induction false} WithoutPrefix<T(!new)>(a: seq<T>, b: seq<T>, x: T)
    requires x !in a
    ensures Without(a + b, x) == a + Without(b, x)
  {
    if a != [] {
      assert a[0] in a;
      assert (a + b)[1..] == a[1..] + b;
      WithoutPrefix(a[1..], b, x);
      assert a == [a[0]] + a[1..];
    } else {
      assert a + b == b;
    }
  }

  /** The elements of `s` that belong to `keep`, in their original order. */
  function Keep<T(!new)>(s: seq<T>, keep: set<T>): (r: seq<T>)
    ensures forall y :: y in r <==> y in s && y in keep
    ensures |r| <= |s|
  {
    if s == [] then []
    else if s[0] in keep then [s[0]] + Keep(s[1..], keep)
    else Keep(s[1..], keep)
  }

  lemma {:induction false} KeepAppend<T(!new)>(a: seq<T>, b: seq<T>, keep: set<T>)
    ensures Keep(a + b, keep) == Keep(a, keep) + Keep(b, keep)
  {
    if a == [] {
      assert a + b == b;
    } else {
      assert (a + b)[1..] == a[1..] + b;
      KeepAppend(a[1..], b, keep);
    }
  }

  lemma {:induction false} KeepAll<T(!new)>(s: seq<T>, keep: set<T>)
    requires forall y :: y in s ==> y in keep
    ensures Keep(s, keep) == s
  {
    if s != [] {
      KeepAll(s[1..], keep);
    }
  }

  lemma {:induction false} KeepNone<T(!new)>(s: seq<T>, keep: set<T>)
    requires forall y :: y in s ==> y !in keep
    ensures Keep(s, keep) == []
  {
    if s != [] {
      KeepNone(s[1..], keep);
    }
  }

  lemma {:induction false} KeepThenWithout<T(!new)>(s: seq<T>, keep: set<T>, x: T)
    ensures Without(Keep(s, keep), x) == Keep(s, keep - {x})
  {
    if s != [] {
      KeepThenWithout(s[1..], keep, x);
    }
  }

  lemma {:induction false} KeepSameLength<T(!new)>(s: seq<T>, keep: set<T>)
    requires |Keep(s, keep)| == |s|
    ensures Keep(s, keep) == s
  {
    if s != [] {
      KeepSameLength(s[1..], keep);
    }
  }

  lemma {:induction false} KeepKeep<T(!new)>(s: seq<T>, a: set<T>, b: set<T>)
    ensures Keep(Keep(s, a), b) == Keep(s, a * b)
  {
    if s != [] {
      KeepKeep(s[1..], a, b);
    }
  }

  lemma {:induction false} KeepDistinct<T(!new)>(s: seq<T>, keep: set<T>)
    requires Distinct(s)
    ensures Distinct(Keep(s, keep))
  {
    if s != [] {
      KeepDistinct(s[1..], keep);
      assert s[0] !in s[1..] by {
        forall j | 0 <= j < |s[1..]| ensures s[1..][j] != s[0] {
          assert s[1..][j] == s[j + 1];
        }
      }
    }
  }


  /** Splitting off the head of a sequence takes one from its multiplicity. */
  lemma MultisetHead<T>(s: seq<T>, x: T)
    requires s != []
    ensures multiset(s)[x] == multiset(s[1..])[x] + (if s[0] == x then 1 else 0)
  {
    assert s == [s[0]] + s[1..];
  }

  /** Prefixes compose: if `b` extends `a` with elements outside `x` and `c`
      extends `b` with elements outside `y ⊇ x`, then `c` extends `a` with
      elements outside `x`. */
  lemma PrefixChain<T>(a: seq<T>, b: seq<T>, c: seq<T>, x: set<T>, y: set<T>)
    requires |a| <= |b| <= |c| && b[..|a|] == a && c[..|b|] == b
    requires forall i :: |a| <= i < |b| ==> b[i] !in x
    requires forall i :: |b| <= i < |c| ==> c[i] !in y
    requires x <= y
    ensures c[..|a|] == a
    ensures forall i :: |a| <= i < |c| ==> c[i] !in x
  {
    assert c[..|a|] == c[..|b|][..|a|];
    forall i | |a| <= i < |c| ensures c[i] !in x {
      if i < |b| {
        assert c[i] == c[..|b|][i];
      }
    }
  }
}

=== FILE: session.dfy ===
/** The drag session of the current engine: the drag store (`item`,
    `dragInfo`) with its `set` and `setDragInfo` actions
    (src/index.jsx:152-159), the global `DragElement` handlers for mouse
    move, mouse up and key down (src/index.jsx:395-427), and the re-resolve
    a zone triggers when its rectangle changes (src/index.jsx:879-882).
    Every store write runs one resolver pass over the registered zones. */
module Session {
  import opened Options
  import opened Geometry
  import opened Resolver
  import Offsets
  import Gesture

  datatype Store<I> = Store(item: Option<I>, dragInfo: Option<Offsets.DragInfo>)

  datatype Engine<K, I> = Engine(store: Store<I>, zones: seq<DropZone<K>>)

  /** The engine after an event, and the callbacks each zone (by position)
      fired during it, in order. */
  datatype Outcome<K, I> = Outcome(engine: Engine<K, I>, fired: seq<seq<Callback<I>>>)

  /** `dragInfo?.currentPos ?? null`. */
  function Position(info: Option<Offsets.DragInfo>): (p: Option<Point>)
    ensures p.Some? <==> info.Some?
    ensures p.Some? ==> p.value == info.value.currentPos
  {
    match info
    case None => None
    case Some(d) => Some(d.currentPos)
  }

  /** Exactly the zone that claims `pos` is over: the first one, in list
      order, whose rectangle contains it; none when there is no position. */
  ghost predicate OverMatches<K>(zones: seq<DropZone<K>>, pos: Option<Point>) {
    forall i :: 0 <= i < |zones| ==>
      (zones[i].isOver <==> pos.Some? && Hits(zones[i], pos.value) &&
                            forall j :: 0 <= j < i ==> !Hits(zones[j], pos.value))
  }

  /** The zones' over flags agree with the stored drag position. */
  ghost predicate Consistent<K, I>(e: Engine<K, I>) {
    OverMatches(e.zones, Position(e.store.dragInfo))
  }

  /** Two zone lists that differ at most in the over flags. */
  ghost predicate SameZones<K>(a: seq<DropZone<K>>, b: seq<DropZone<K>>) {
    |a| == |b| && forall i :: 0 <= i < |a| ==> a[i].(isOver := b[i].isOver) == b[i]
  }

  /** A non-drop pass leaves exactly the claiming zone over and touches
      nothing but the over flags. */
  lemma PassMatches<K, I>(zones: seq<DropZone<K>>, pos: Option<Point>, item: Option<I>)
    ensures OverMatches(Update(zones, pos, false, item).zones, pos)
    ensures SameZones(zones, Update(zones, pos, false, item).zones)
    ensures |Update(zones, pos, false, item).fired| == |zones|
  {
    var r := Update(zones, pos, false, item);
    forall i | 0 <= i < |zones|
      ensures (r.zones[i].isOver <==> pos.Some? && Hits(r.zones[i], pos.value) &&
                                      forall j :: 0 <= j < i ==> !Hits(r.zones[j], pos.value))
    {
      assert r.zones[i] == zones[i].(isOver := pos.Some? && i == HitIndex(zones, pos.value));
      assert forall j :: 0 <= j <= i ==> r.zones[j].rect == zones[j].rect;
    }
  }

  /** `set({item, dragInfo})`: store both, then resolve at the new position
      (non-drop pass). */
  function Set<K, I>(e: Engine<K, I>, item: Option<I>, info: Option<Offsets.DragInfo>): (r: Outcome<K, I>)
    ensures r.engine.store == Store(item, info)
    ensures Consistent(r.engine) && SameZones(e.zones, r.engine.zones)
    ensures AtMostOneOver(r.engine.zones)
    ensures |r.fired| == |e.zones|
    ensures forall i :: 0 <= i < |e.zones| ==> !HasDrop(r.fired[i])
    ensures forall i :: 0 <= i < |e.zones| ==>
      r.fired[i] == Expected(e.zones[i], Position(info).Some? && i == HitIndex(e.zones, Position(info).value),
                             Position(info), false, item)
  {
    var pass := Update(e.zones, Position(info), false, item);
    PassMatches(e.zones, Position(info), item);
    UpdateLeavesAtMostOneOver(e.zones, Position(info), false, item);
    forall i | 0 <= i < |e.zones| ensures !HasDrop(pass.fired[i]) {
      assert pass.fired[i] == Expected(e.zones[i], Position(info).Some? && i == HitIndex(e.zones, Position(info).value), Position(info), false, item);
    }
    Outcome(Engine(Store(item, info), pass.zones), pass.fired)
  }

  /** Whether a list of callbacks contains a drop. */
  predicate HasDrop<I>(cs: seq<Callback<I>>) {
    exists i :: 0 <= i < |cs| && cs[i].Drop?
  }

  /** Starting a drag from a started gesture (`onItemDragStart` followed by
      `set`): the session now carries the item and the element-centre drag
      info. */
  function StartDrag<K, I>(e: Engine<K, I>, item: I, g: Gesture.GestureData, node: Box): (r: Outcome<K, I>)
    ensures r.engine.store.item == Some(item)
    ensures r.engine.store.dragInfo.Some? && r.engine.store.dragInfo.value.currentPos == Centre(node)
    ensures Consistent(r.engine) && SameZones(e.zones, r.engine.zones)
    ensures |r.fired| == |e.zones|
    ensures forall i :: 0 <= i < |e.zones| ==>
      r.fired[i] == Expected(e.zones[i], i == HitIndex(e.zones, Centre(node)), Some(Centre(node)), false, Some(item))
  {
    Set(e, Some(item), Some(Offsets.BeginDrag(g, node)))
  }

  /** The mouse-move handler through `setDragInfo`: the current position
      follows the cursor (no drag info stays none) and the zones are
      re-resolved at the new position. */
  function MouseMove<K, I>(e: Engine<K, I>, raw: Point): (r: Outcome<K, I>)
    ensures r.engine.store.item == e.store.item
    ensures r.engine.store.dragInfo == Offsets.Move(e.store.dragInfo, raw)
    ensures Consistent(r.engine) && SameZones(e.zones, r.engine.zones)
    ensures e.store.dragInfo.Some? ==>
      Position(r.engine.store.dragInfo) == Some(AddPos(raw, e.store.dragInfo.value.mouseOffset))
    ensures |r.fired| == |e.zones|
    ensures forall i :: 0 <= i < |e.zones| ==>
      var pos := Position(r.engine.store.dragInfo);
      r.fired[i] == Expected(e.zones[i], pos.Some? && i == HitIndex(e.zones, pos.value), pos, false, e.store.item)
  {
    var info := Offsets.Move(e.store.dragInfo, raw);
    var pass := Update(e.zones, Position(info), false, e.store.item);
    PassMatches(e.zones, Position(info), e.store.item);
    Outcome(Engine(Store(e.store.item, info), pass.zones), pass.fired)
  }

  /** The mouse-up handler: with drag info, a drop pass at the current
      position, then `set({item: null, dragInfo: null})` and its pass;
      without drag info nothing happens. The second pass fires nothing, so
      the callbacks are those of the drop pass. */
  function MouseUp<K, I>(e: Engine<K, I>): (r: Outcome<K, I>)
    ensures e.store.dragInfo.None? ==> r.engine == e && forall i :: 0 <= i < |r.fired| ==> r.fired[i] == []
    ensures e.store.dragInfo.Some? ==> r.engine.store == Store(None, None)
    ensures e.store.dragInfo.Some? ==>
      r.fired == Update(e.zones, Position(e.store.dragInfo), true, e.store.item).fired
    ensures e.store.dragInfo.Some? ==> forall i :: 0 <= i < |r.engine.zones| ==> !r.engine.zones[i].isOver
    ensures SameZones(e.zones, r.engine.zones)
  {
    match e.store.dragInfo
    case None => Outcome(e, seq(|e.zones|, _ => []))
    case Some(d) =>
      var drop := Update(e.zones, Some(d.currentPos), true, e.store.item);
      var clear := Update(drop.zones, None, false, None);
      ClearAfterDropIsSilent(e.zones, d.currentPos, e.store.item, None);
      var fired := seq(|e.zones|, i requires 0 <= i < |e.zones| => drop.fired[i] + clear.fired[i]);
      assert fired == drop.fired by {
        forall i | 0 <= i < |e.zones| ensures fired[i] == drop.fired[i] {
          assert clear.fired[i] == [];
        }
      }
      Outcome(Engine(Store(None, None), clear.zones), fired)
  }

  /** The key-down handler cancels the drag: the session is cleared and the
      zones only hear a leave, each zone that was over and has a callback
      exactly once; no drop happens. */
  function KeyDown<K, I>(e: Engine<K, I>): (r: Outcome<K, I>)
    ensures r.engine.store == Store(None, None)
    ensures SameZones(e.zones, r.engine.zones) && |r.fired| == |e.zones|
    ensures forall i :: 0 <= i < |e.zones| ==> !r.engine.zones[i].isOver
    ensures forall i :: 0 <= i < |e.zones| ==>
      r.fired[i] == (if e.zones[i].isOver && e.zones[i].hasOnDragOver then [Leave] else [])
  {
    var r := Set(e, None, None);
    forall i | 0 <= i < |e.zones|
      ensures r.fired[i] == (if e.zones[i].isOver && e.zones[i].hasOnDragOver then [Leave] else [])
    {
      OnlyWinnerClaims<K, I>(e.zones, None, false, None, i);
    }
    r
  }

  /** The rectangle cell's `set` notifies unless old and new are the same
      reference. Each measurement is a fresh object, so only a null written
      over a null is silent. */
  predicate RectNotifies(old_: Option<Rect>, new_: Option<Rect>) {
    !(old_.None? && new_.None?)
  }

  /** A zone's rectangle cell was set (scroll, resize): store the new
      rectangle and, when the cell notifies during a drag, re-resolve at the
      current position. */
  function RectChanged<K, I>(e: Engine<K, I>, i: nat, rect: Option<Rect>): (r: Outcome<K, I>)
    requires i < |e.zones|
    ensures |r.engine.zones| == |e.zones| && r.engine.store == e.store
    ensures r.engine.zones[i].rect == rect
    ensures forall j :: 0 <= j < |e.zones| && j != i ==> r.engine.zones[j].rect == e.zones[j].rect
    ensures Consistent(e) ==> Consistent(r.engine)
    ensures |r.fired| == |e.zones|
    ensures !RectNotifies(e.zones[i].rect, rect) ==> r.engine == e
    ensures !RectNotifies(e.zones[i].rect, rect) || e.store.dragInfo.None? ==>
      forall j :: 0 <= j < |e.zones| ==> r.fired[j] == []
    ensures RectNotifies(e.zones[i].rect, rect) && e.store.dragInfo.Some? ==>
      var zs := e.zones[i := e.zones[i].(rect := rect)];
      var p := e.store.dragInfo.value.currentPos;
      forall j :: 0 <= j < |e.zones| ==>
        r.fired[j] == Expected(zs[j], j == HitIndex(zs, p), Some(p), false, e.store.item)
  {
    var zones := e.zones[i := e.zones[i].(rect := rect)];
    if !RectNotifies(e.zones[i].rect, rect) then
      assert zones == e.zones;
      Outcome(e, seq(|e.zones|, _ => []))
    else match e.store.dragInfo
      case None => Outcome(Engine(e.store, zones), seq(|zones|, _ => []))
      case Some(d) =>
        var pass := Update(zones, Some(d.currentPos), false, e.store.item);
        PassMatches(zones, Some(d.currentPos), e.store.item);
        Outcome(Engine(e.store, pass.zones), pass.fired)
  }

  /** Every event leaves at most one zone over. */
  lemma EventsKeepOneOver<K, I>(e: Engine<K, I>, raw: Point, i: nat, rect: Option<Rect>)
    requires Consistent(e)
    ensures AtMostOneOver(MouseMove(e, raw).engine.zones)
    ensures AtMostOneOver(MouseUp(e).engine.zones)
    ensures AtMostOneOver(KeyDown(e).engine.zones)
    ensures i < |e.zones| ==> AtMostOneOver(RectChanged(e, i, rect).engine.zones)
  {
    ConsistentOneOver(MouseMove(e, raw).engine);
    ConsistentOneOver(e);
    if i < |e.zones| {
      ConsistentOneOver(RectChanged(e, i, rect).engine);
    }
  }

  lemma ConsistentOneOver<K, I>(e: Engine<K, I>)
    requires Consistent(e)
    ensures AtMostOneOver(e.zones)
  {
  }

  /** A drag cancelled with a key never drops. */
  lemma KeyDownNeverDrops<K, I>(e: Engine<K, I>)
    ensures forall i :: 0 <= i < |e.zones| ==> !HasDrop(KeyDown(e).fired[i])
  {
  }

  /** A drop goes to the zone under the cursor: the first zone, in list
      order, that contains the current position, and only when it has an
      `onDrop`; it receives the position local to its rectangle. */
  lemma MouseUpDropsOnWinner<K, I>(e: Engine<K, I>)
    requires e.store.dragInfo.Some?
    ensures var p := e.store.dragInfo.value.currentPos;
      var w := HitIndex(e.zones, p);
      w < |e.zones| && e.zones[w].hasOnDrop ==>
        MouseUp(e).fired[w][0] == Drop(e.store.item, GetRelPosition(e.zones[w].rect.value, p))
    ensures var p := e.store.dragInfo.value.currentPos;
      forall i :: 0 <= i < |e.zones| && i != HitIndex(e.zones, p) ==> !HasDrop(MouseUp(e).fired[i])
  {
    var p := e.store.dragInfo.value.currentPos;
    var pass := Update(e.zones, Some(p), true, e.store.item);
    var u := MouseUp(e);
    assert Position(e.store.dragInfo) == Some(p);
    assert u.fired == pass.fired;
    DropLeavesNothingOver<K, I>(e.zones, p, e.store.item);
    forall i | 0 <= i < |e.zones| && i != HitIndex(e.zones, p)
      ensures !HasDrop(u.fired[i])
    {
      OnlyWinnerClaims(e.zones, Some(p), true, e.store.item, i);
      assert pass.fired[i] == [] || pass.fired[i] == [Leave];
    }
  }

}

=== FILE: zone_registry.dfy ===
/** The drop-zone list of `createDropZoneManager` (src/index.jsx:47-75):
    zones kept top-painted first, placed by binary search against a
    stacking-order comparator and removed by identity. The comparator is a
    parameter: it stands for `(a, b) => a === b ? 0 : compare(b.node, a.node)`
    over the `stacking-order` library's `compare`. */
module ZoneRegistry {
  import opened Seqs

  /** What binary placement needs of the comparator: swapping the arguments
      of a non-negative comparison gives a non-positive one, and "not after"
      (a non-positive comparison) is transitive. */
  ghost predicate StackingOrder<Z(!new)>(cmp: (Z, Z) -> int) {
    && (forall a, b :: cmp(a, b) >= 0 ==> cmp(b, a) <= 0)
    && (forall a, b, c :: cmp(a, b) <= 0 && cmp(b, c) <= 0 ==> cmp(a, c) <= 0)
  }

  /** No zone is placed after one it should precede. */
  ghost predicate Sorted<Z>(zones: seq<Z>, cmp: (Z, Z) -> int) {
    forall i, j :: 0 <= i < j < |zones| ==> cmp(zones[i], zones[j]) <= 0
  }

  /** `getIndexViaBinarySearch`: an insertion point for `el`. On a sorted list
      every zone before it comes no later than `el`, and `el` comes no later
      than every zone from it on. */
  method IndexViaBinarySearch<Z(!new)>(list: seq<Z>, el: Z, cmp: (Z, Z) -> int) returns (r: nat)
    ensures r <= |list|
    ensures StackingOrder(cmp) && Sorted(list, cmp) ==>
      && (forall j :: 0 <= j < r ==> cmp(list[j], el) <= 0)
      && (forall j :: r <= j < |list| ==> cmp(el, list[j]) <= 0)
  {
    var m: int := 0;
    var n: int := |list| - 1;
    while m <= n
      invariant 0 <= m <= n + 1 <= |list|
      invariant StackingOrder(cmp) && Sorted(list, cmp) ==>
        && (forall j :: 0 <= j < m ==> cmp(list[j], el) <= 0)
        && (forall j :: n < j < |list| ==> cmp(el, list[j]) <= 0)
      decreases n - m + 1
    {
      var k := (n + m) / 2;
      var c := cmp(el, list[k]);
      if c > 0 {
        m := k + 1;
      } else if c < 0 {
        n := k - 1;
      } else {
        return k;
      }
    }
    return m;
  }

  /** `addDropZone`: the list with `z` spliced in at the searched index. */
  method AddDropZone<Z(!new)>(zones: seq<Z>, z: Z, cmp: (Z, Z) -> int) returns (r: seq<Z>)
    ensures |r| == |zones| + 1
    ensures exists at :: 0 <= at <= |zones| && r == zones[..at] + [z] + zones[at..]
    ensures multiset(r) == multiset(zones) + multiset{z}
    ensures StackingOrder(cmp) && Sorted(zones, cmp) ==> Sorted(r, cmp)
  {
    var at := IndexViaBinarySearch(zones, z, cmp);
    r := zones[..at] + [z] + zones[at..];
    assert zones == zones[..at] + zones[at..];
    if StackingOrder(cmp) && Sorted(zones, cmp) {
      InsertKeepsSorted(zones, z, cmp, at);
    }
  }

  lemma InsertKeepsSorted<Z(!new)>(zones: seq<Z>, z: Z, cmp: (Z, Z) -> int, at: nat)
    requires at <= |zones|
    requires StackingOrder(cmp) && Sorted(zones, cmp)
    requires forall j :: 0 <= j < at ==> cmp(zones[j], z) <= 0
    requires forall j :: at <= j < |zones| ==> cmp(z, zones[j]) <= 0
    ensures Sorted(zones[..at] + [z] + zones[at..], cmp)
  {
    var r := zones[..at] + [z] + zones[at..];
    forall i, j | 0 <= i < j < |r| ensures cmp(r[i], r[j]) <= 0 {
      if j < at {
        assert r[i] == zones[i] && r[j] == zones[j];
      } else if j == at {
        assert r[i] == zones[i] && r[j] == z;
      } else if i < at {
        assert r[i] == zones[i] && r[j] == zones[j - 1];
      } else if i == at {
        assert r[i] == z && r[j] == zones[j - 1];
      } else {
        assert r[i] == zones[i - 1] && r[j] == zones[j - 1];
      }
    }
  }

  /** The unregister function returned by `addDropZone`: `splice(indexOf(z), 1)`.
      When `z` is absent, `indexOf` gives -1 and `splice(-1, 1)` removes the
      last zone. */
  function RemoveDropZone<Z(==)>(zones: seq<Z>, z: Z): (r: seq<Z>)
    ensures z in zones ==>
      var i := IndexOf(zones, z);
      r == zones[..i] + zones[i + 1..] && multiset(r) == multiset(zones) - multiset{z}
    ensures z !in zones && zones != [] ==> r == zones[..|zones| - 1]
    ensures zones == [] ==> r == []
  {
    var i := IndexOf(zones, z);
    if i >= 0 then
      assert zones == zones[..i] + [zones[i]] + zones[i + 1..];
      zones[..i] + zones[i + 1..]
    else if zones != [] then zones[..|zones| - 1]
    else zones
  }

  /** Registering a fresh zone and then calling its unregister function gives
      back the list it was added to. */
  lemma RemoveUndoesAdd<Z>(zones: seq<Z>, z: Z, at: nat)
    requires at <= |zones| && z !in zones
    ensures RemoveDropZone(zones[..at] + [z] + zones[at..], z) == zones
  {
    var r := zones[..at] + [z] + zones[at..];
    assert r[at] == z;
    assert r[..at] == zones[..at];
    assert z !in r[..at];
    assert IndexOf(r, z) == at;
    assert r[at + 1..] == zones[at..];
    assert zones == zones[..at] + zones[at..];
  }

  /** Removing a zone keeps the others in their relative order, so the list
      stays sorted. */
  lemma RemoveKeepsSorted<Z>(zones: seq<Z>, z: Z, cmp: (Z, Z) -> int)
    requires Sorted(zones, cmp)
    ensures Sorted(RemoveDropZone(zones, z), cmp)
  {
    var r := RemoveDropZone(zones, z);
    if z in zones {
      var k := IndexOf(zones, z);
      forall i, j | 0 <= i < j < |r| ensures cmp(r[i], r[j]) <= 0 {
        var i' := if i < k then i else i + 1;
        var j' := if j < k then j else j + 1;
        assert r[i] == zones[i'] && r[j] == zones[j'];
      }
    }
  }

  /** Adding a zone that is not yet registered keeps the list free of
      duplicates, so removal by identity removes exactly that zone. */
  lemma AddKeepsDistinct<Z>(zones: seq<Z>, z: Z, at: nat)
    requires at <= |zones| && z !in zones && Distinct(zones)
    ensures Distinct(zones[..at] + [z] + zones[at..])
  {
    var r := zones[..at] + [z] + zones[at..];
    forall i, j | 0 <= i < j < |r| ensures r[i] != r[j] {
      if i != at && j != at {
        var i' := if i < at then i else i - 1;
        var j' := if j < at then j else j - 1;
        assert r[i] == zones[i'] && r[j] == zones[j'];
      } else if i == at {
        assert r[j] == zones[j - 1];
      } else {
        assert r[i] == zones[i];
      }
    }
  }

}
